=== FILE: README.md ===
# pyreadline engine, modelled in Dafny

This project models the engine of pyreadline (`pyreadline/rlmain.py`). The engine is
the part of the line editor that sits between the console and the editing modes:

- **Render engine.** It redraws the prompt and the line after every step
  (`_update_line`). That means printing the prompt, painting the buffer with its
  selection, keeping the bottom row free for an input-method status bar, moving the
  remembered prompt positions up when the window scrolls, erasing what the old line
  left behind, and placing the cursor on the wrapped line.
- **Interrupt handling.** It tells a single interrupt from a deliberate double tap
  (`handle_ctrl_c`).
- **Input loop.** It drains a queue of pasted lines before it reads keys
  (`_readline_from_keyboard_poll`). The loop serves both the blocking `readline` and
  the callback protocol.
- **Configuration.** It handles the one-line configuration language (`parse_and_bind`),
  the bell (`_bell`), and the unbinding functions the start-up script receives.

The model is pure. The engine is an immutable record (`EngineState.Engine`), and every
operation is a function from a state and its inputs to a new state, plus the console
calls it makes, in order. The console is not modelled. Whatever a step reads from it
is an argument:

- the key press or interrupt the step receives;
- where the cursor is read back after it was sent to the stored prompt start;
- how many rows a write scrolled;
- where the cursor ended up;
- the window size.

The editing modes' behaviour is the parameter `EngineState.Env`: key processing,
quoting, visible width and the mode's own setup. The key-description parser is a
parameter of `Config.ParseAndBind` and of the unbinding functions; a description it
rejects makes the call raise.

The engine's attributes that exist only after a first assignment are optional fields:
the prompt positions appear when a prompt is first printed, and the tap time when a
blocking read starts.

Modules, in dependency order:

| module | file | content |
|---|---|---|
| `Common` | common.dfy | `Option`, `Result`, and the exceptions the engine can raise |
| `PyText` | pytext.dfy | character classes of the regular expressions, Python's clamped slices, maximal-run scans |
| `Console` | console.dfy | positions, rectangles, colours, key presses, console calls |
| `Render` | render.dfy | one redraw pass and its pieces |
| `Interrupt` | interrupt.dfy | `handle_ctrl_c` and the tap window |
| `Statements` | statements.dfy | the two regular expressions of `parse_and_bind`, proved equal to declarative shapes |
| `EngineState` | state.dfy | the engine record, the modes, the initial state |
| `Config` | config.dfy | `parse_and_bind`, the `set` options, `_bell`, unbinding |
| `InputLoop` | input.dfy | the poll step, the callback protocol, the blocking read |

Units and representations:

- Time is counted in integer ticks of one millisecond, so the default tap window of
  0.3 s is 300 ticks.
- Python 2 orders every number below every string. So once a `set` line stores the tap
  window as text, every gap is "within" it: no tap is ever swallowed again
  (`Interrupt.TextWindowAlwaysAborts`).
- The two regular expressions are modelled exactly, including where they backtrack,
  and each parser is proved to accept exactly the lines of a declarative shape:
  - `set\s+([-a-zA-Z0-9]+)\s+(.+)\s*$`. When only blanks follow the name, the value is
    the last blank that is not a line feed.
  - `\s*(.+)\s*:\s*([-a-zA-Z]+)\s*$`. The separator is always the last colon. The key
    ends at the first line feed when only blanks follow that line feed.

## Model

| member | source | states |
|---|---|---|
| Render.Wrap | pyreadline/rlmain.py:441-443 | the wrapping loop ends with the column reduced modulo the width and the row advanced by the quotient |
| Render.SetCursor | pyreadline/rlmain.py:436-444 | the cursor lands at column (prompt end column + visible width) mod width, always inside the window, on the row advanced by the quotient |
| Render.PrintPrompt | pyreadline/rlmain.py:446-453 | the prompt begins at the column where it was written, on the row moved up by the rows the write scrolled; the prompt end and size are what the console reports |
| Render.UpdatePromptPos | pyreadline/rlmain.py:455-460 | both prompt positions move up by n rows, columns and size unchanged; a zero shift changes nothing |
| Render.UpdatePromptPosAdds | pyreadline/rlmain.py:455-460 | two shifts compose to one shift by their sum |
| Render.UpdatePromptPosInverse | pyreadline/rlmain.py:455-460 | shifting by n and then by -n restores the positions |
| Render.Ordered | pyreadline/rlmain.py:470-473 | the selection bounds come out ordered and are the same two numbers |
| Render.SlicesJoin | pyreadline/rlmain.py:474-476 | the three clamped slices at the selection bounds concatenate back to the whole text |
| Render.Paint | pyreadline/rlmain.py:468-478 | the painted spans concatenate to exactly the quoted text; without a selection one span in the command colour; with one, three spans coloured command, selection, command, split at the ordered bounds |
| Render.Reserve | pyreadline/rlmain.py:480-485 | the shift is the last paint write's scroll count, plus one row exactly when the cursor is on or below the last row or that write scrolled |
| Render.ClearAfter | pyreadline/rlmain.py:429-434 | the erased cells are exactly the rest of the cursor row and the next two rows within the window |
| Render.Redraw | pyreadline/rlmain.py:462-495 | a pass hides the cursor, sends it to the stored prompt start and rewrites the prompt; the new prompt start is where the console put the cursor, moved up by the rows the prompt write scrolled and by the reserve shift; the prompt end moves up by the reserve shift only; the window scrolls exactly when a row must be reserved; the spans are the paint of the view, written in order and in their colours right after the prompt; the rest of the window is erased, by one call in fast mode and otherwise by `_clear_after`'s rectangles; the cursor is shown at the mode's size and the pass ends with it at the wrapped position |
| Render.RedrawWritesText | pyreadline/rlmain.py:468-478 | after the prompt a pass writes the whole text in the command colour, or, with a selection, three writes that spell the text, of which only the middle one is in the selection colour |
| Render.RedrawIsStable | pyreadline/rlmain.py:462-495 | when the console puts the cursor where it is sent, nothing scrolls and the cursor stays off the last row, a pass keeps the prompt in place and repeating it changes nothing |
| Render.RedrawTwiceNoDrift | pyreadline/rlmain.py:462-495 | two passes with different views and windows, each finding the cursor where it sent it and scrolling nothing, both start at the original prompt start and leave the prompt there |
| Interrupt.HandleCtrlC | pyreadline/rlmain.py:554-571 | an interrupt escapes when interrupts are not allowed or the gap since the last tap is inside the window; otherwise it becomes Control-c and records its time; an unset tap time fails as a missing attribute and a textual one as a type error |
| Interrupt.DoubleTapAborts | pyreadline/rlmain.py:562-568 | a swallowed tap followed by a second one inside the window escapes |
| Interrupt.SeparatedTapsDeliver | pyreadline/rlmain.py:562-568 | taps at least a window apart are each swallowed |
| Interrupt.TextWindowAlwaysAborts | pyreadline/rlmain.py:562-566 | a textual tap window lets no tap through |
| Statements.Classify | pyreadline/rlmain.py:73-87 | comment lines, `set` lines and binding lines are told apart by their prefixes, in that order; an accepted `set` line has a non-empty name and value |
| Statements.ParseSet | pyreadline/rlmain.py:76-86 | a `set` line is either accepted or reported bad; accepted names and values are never empty |
| Statements.ParseSetSound | pyreadline/rlmain.py:76-79 | an accepted `set` line has the shape `set` blanks name blanks value blanks, and the name and value are groups of that shape |
| Statements.ParseSetComplete | pyreadline/rlmain.py:76-79 | every line of that shape is accepted, with that name |
| Statements.ParseBinding | pyreadline/rlmain.py:87-90 | a line is a binding or ignored; an accepted binding has a non-empty key without line feeds and a non-empty command without a colon |
| Statements.KeyBefore | pyreadline/rlmain.py:87-89 | a key found before the separator is non-empty, no longer than the text before the separator, and holds no line feed |
| Statements.KeyBeforeSound | pyreadline/rlmain.py:87-89 | a key found before the separator is the middle of blanks, key, blanks |
| Statements.KeyBeforeComplete | pyreadline/rlmain.py:87-89 | whenever such a split exists, a key is found |
| Statements.ParseBindingSound | pyreadline/rlmain.py:87-90 | an accepted binding line has the shape blanks key blanks colon blanks command blanks, and the key and command are its groups |
| Statements.ParseBindingComplete | pyreadline/rlmain.py:87-90 | every line of that shape is accepted, with that command |
| EngineState.BaseInitial | pyreadline/rlmain.py:49-67 | a new engine has the first mode active, interrupts off, a 0.3 s tap window, no tap time, no prompt positions, the bell off, debug off and no callback |
| EngineState.Initial | pyreadline/rlmain.py:403-409 | the console engine is the base engine with the selection colour taken from the saved attribute shifted by four bits and the other two colours unset |
| Config.SetAttribute | pyreadline/rlmain.py:78-83 | a `set` assignment replaces exactly the named attribute and nothing else: flags take the value's truth, the tap window and the tap time become text, a colour becomes a text colour, a text callback cannot be called, `prompt` sets the active mode's prompt, any other name outside the collaborator names is recorded; `__class__` and `__dict__` raise a type error and `__weakref__` an attribute error, changing nothing; no key table changes |
| Config.ParseAndBind | pyreadline/rlmain.py:69-102 | comments, bad `set` lines and unmatched lines change nothing; a `set` line assigns its underscored name, where the attribute error of `__weakref__` is caught and the type error of `__class__` or `__dict__` is raised with nothing changed; only a binding line touches a key table, binding the decoded chord in the active mode when the command exists, raising when the key description cannot be decoded, and otherwise printing a message exactly in debug mode |
| Config.BindingIsExact | pyreadline/rlmain.py:87-99 | after a binding the chord runs the command, the table gains exactly that chord, and every other chord keeps its command |
| Config.SetFlagAlwaysEnables | pyreadline/rlmain.py:76-81 | any `set` line for `allow-ctrl-c` or `debug` turns the flag on, whatever its value |
| Config.ClassifyBellStyleLine | pyreadline/rlmain.py:75-80 | "set bell-style V", for a value starting with a non-blank and holding no line feed, sets bell-style to V, trailing blanks included |
| Config.ParseBellStyle | pyreadline/rlmain.py:75-81 | such a line stores V as the bell style, prints nothing and raises nothing |
| Config.SetBellStyleNone | pyreadline/rlmain.py:75-81 | after "set bell-style none" the bell is silent |
| Config.SetBellStyleTrailingBlank | pyreadline/rlmain.py:75-81 | after "set bell-style none " the style is "none " with its blank, and ringing the bell fails as an unknown style |
| Config.BellSilentIffNone | pyreadline/rlmain.py:75-81 | after any `set bell-style` line the bell is silent exactly when the parsed value is "none" |
| Config.ClassifyBeginningOfLine | pyreadline/rlmain.py:87-90 | "Control-a: beginning-of-line" binds Control-a to beginning-of-line |
| Config.BindBeginningOfLine | pyreadline/rlmain.py:87-99 | that line binds the decoded chord to `beginning_of_line` when the mode has it, raises when Control-a cannot be decoded, and otherwise leaves the engine unchanged |
| Config.UnBindKey | pyreadline/rlmain.py:283-286 | an undecodable key description raises; otherwise the chord is no longer bound in the first mode, every other chord keeps its binding, and nothing but the first mode's key table changes |
| Config.UnBindExitKey | pyreadline/rlmain.py:291-294 | an undecodable key description raises; otherwise the chord is removed from the first mode's exit keys and nothing else changes |
| Config.UnBindUndoesBinding | pyreadline/rlmain.py:283-286 | with the first mode active, unbinding the chord a binding line bound, when it was not bound before, gives back the original engine |
| Config.UnBindExitKeyIsIdempotent | pyreadline/rlmain.py:291-294 | unbinding an exit key a second time changes nothing |
| Config.RingBell | pyreadline/rlmain.py:418-427 | "none" is silent, "audible" rings, "visible" fails as not implemented, and any other style fails with its name in the message |
| InputLoop.ViewOf | pyreadline/rlmain.py:464-471 | a selection is shown exactly when it is enabled and a mark is set, bounded by the rendered lengths before the mark and before the point |
| InputLoop.UpdateLine | pyreadline/rlmain.py:462-495 | a redraw changes only the prompt positions; before any prompt was printed it hides the cursor and fails for want of `prompt_begin_pos` |
| InputLoop.PasteStep | pyreadline/rlmain.py:522-528 | a paste step finishes a line, keeps the queue's tail, and puts the pasted line into an engine-level buffer while the mode's buffer keeps its text; when the redraw fails the queue stays whole |
| InputLoop.KeyStep | pyreadline/rlmain.py:537-539 | the mode's result decides the step's result and the new mode state; a swallowed interrupt records its time; a failed redraw raises after both |
| InputLoop.PollStep | pyreadline/rlmain.py:521-539 | the paste queue takes priority over the key read; an interrupt that escapes leaves the engine unchanged and writes nothing; no step touches the options, the other modes or the callback slot |
| InputLoop.PasteReadsNoKey | pyreadline/rlmain.py:523-528 | with paste lines queued, the step's result does not depend on the console's input |
| InputLoop.AbortWhenDisallowed | pyreadline/rlmain.py:533-536 | with interrupts not allowed, an interrupt always escapes and changes nothing |
| InputLoop.PollDoubleTap | pyreadline/rlmain.py:533-539 | over two steps, a separated tap reaches the mode as Control-c and a second tap inside the window escapes |
| InputLoop.CallbackReadChar | pyreadline/rlmain.py:498-509 | a finished line is passed on as the buffer text plus a line feed, after a new line is written and exactly one history entry, the buffer text, is appended; an open line passes nothing; without a callback the call fails; an exception from the step escapes, leaving the engine alone once a prompt was printed |
| InputLoop.ReadCharBeforeSetupFails | pyreadline/rlmain.py:462-466 | before any prompt was printed, a callback step delivers nothing, fails for want of the prompt positions when it reaches the redraw, and leaves them absent |
| InputLoop.InitialReadCharFails | pyreadline/rlmain.py:498-500 | on a new engine the first key press makes the callback step fail for want of `prompt_begin_pos` |
| InputLoop.PasteDeliversOldBuffer | pyreadline/rlmain.py:521-528 | a callback step that dequeues a paste line delivers the text the mode's buffer already held |
| InputLoop.Setup | pyreadline/rlmain.py:541-544 | setup lets the mode prepare, prints its prompt so that the prompt positions exist, then redraws from where the prompt was printed; the prompt positions afterwards are those of that redraw |
| InputLoop.CallbackHandlerInstall | pyreadline/rlmain.py:244-249 | installing sets the callback slot and then runs setup |
| InputLoop.CallbackHandlerRemove | pyreadline/rlmain.py:251-253 | removing empties the callback slot and changes nothing else |
| InputLoop.RemovedCallbackIsNotCalled | pyreadline/rlmain.py:251-253 | after removal no step reaches a callback |
| InputLoop.Advance | pyreadline/rlmain.py:516-519 | a finished step returns the buffer text plus a line feed after writing a new line; an abort is an interrupt, a bad tap time or missing prompt positions; once a prompt was printed an abort changes nothing, and it is KeyboardInterrupt when interrupts are off or the tap time is a time |
| InputLoop.Run | pyreadline/rlmain.py:516-519 | a read that returns gives the buffer text plus a line feed, and its last console call writes a new line; an aborted read escapes with one of those four errors, and only with KeyboardInterrupt once a prompt was printed and interrupts are off or the tap time is a time |
| InputLoop.PasteReturnsAtOnce | pyreadline/rlmain.py:546-552 | with a paste line queued, a blocking read returns after one step with the buffer's previous text, or fails at once when no prompt was printed |
| InputLoop.RunContinues | pyreadline/rlmain.py:517-519 | a step that leaves the line open hands over to the rest of the inputs |
| InputLoop.ReadLoop | pyreadline/rlmain.py:516-519 | the polling loop computes exactly the recursive read |
| InputLoop.Readline | pyreadline/rlmain.py:546-552 | a blocking read runs setup, starts the tap clock at the read's start, polls, and returns the buffer text plus a line feed; it can only abort with KeyboardInterrupt |

## Left out

- Console I/O is not modelled. What the console reports is passed in as arguments:
  `RedrawObs`, `PromptObs`, and the key or interrupt of each step.
- `MockConsole`, the IronPython default prompt, and logging are not modelled. They have
  no effect on the engine's state.
- The editing modes are not modelled. This covers `process_keyevent`, `quoted_text`,
  `visible_line_width`, the mode's `readline_setup`, and `make_KeyPress_from_keydescr`.
  They are the parameters in `EngineState.Env`, except the key-description parser,
  which is a parameter of the functions that decode keys. A mode that raises (for example
  `EOFError`) is not modelled: `process` is total.
- `keyboard_poll` goes through the active mode's `_readline_from_keyboard_poll`, which
  is not part of this model. It is taken to be the engine's poll step.
- History is not modelled as its own component. The source hands `add_history` the
  buffer object `self.mode.l_buffer` (rlmain.py:262, 507); the model appends the
  buffer's text. The history component's own filtering of empty or repeated lines is not
  part of this model.
- The callback's own effect is not modelled. A delivered line is reported as
  `Delivered(line)`.
- The blocking read's endless loop is a finite list of inputs. When the inputs run out,
  the read is `Waiting`.
- Floating-point time is integer milliseconds.
- `read_inputrc` and the other start-up script functions are not modelled, because
  the script runner is not. Most of them wire the script to the modes and the console:
  `setmode`, `bind_key`, `bind_exit_key`, the clipboard and history-file setters, and
  the colour setters. Others set engine options the model keeps, with values its types
  already cover: `setbellstyle` the bell style (rlmain.py:303-304, 316-317),
  `allow_ctrl_c` the interrupt flag (312-314), `ctrl_c_tap_time_interval` the tap
  window, possibly as a number (322-323), and `debug_output` the debug flag (334-336).
  `disable_readline` (306-307) sets an attribute no modelled operation reads.
- Config.ParseAndBind: binding goes through the active mode's `_bind_key`, which is not
  part of this model. The model assumes that it decodes the key description with the
  same parser the unbinding functions use, unchanged, and that it stores whatever
  attribute the command lookup found. `Config.UnBindUndoesBinding` rests on the first
  assumption.
- The rest of the `BaseReadline` interface is not modelled: history access, completer
  settings, hooks, and `event_available`. These are thin passthroughs to the modes.
- Render.Redraw: requires a window at least one column wide. With a width of zero or
  less, the cursor loop of `_set_cursor` never ends.
- Render.Redraw: uses the scroll count of the last of the three selection writes only.
  Each write overwrites it, so rows scrolled by the first two writes are not counted.
- Render.ClearAfter: reads the console's rectangle as half-open on the right and the
  bottom.
- InputLoop.CallbackReadChar: with the callback removed, a finished line still writes a
  new line and extends the history, and then calling the empty slot fails
  (`NotCallable`). `callback_handler_remove` (rlmain.py:251-253) only empties the slot.
- Config.SetAttribute: promises nothing about the engine's state beyond the key tables
  for the names in `Config.Shadowed`: the collaborators `mode`, `editingmodes` and
  `console`, the prompt positions, `size`, and the methods the modelled operations
  call. In the source a `set` line can replace any of them with text, which breaks the
  later calls that use it; the model records the text as an attribute instead.
- Config.SetAttribute: the messages of the type errors for `__class__` and `__dict__`
  are CPython 2.7's for a unicode value; a line given as an 8-bit string would name
  `str` in them instead.
- Config.SetAttribute: a text stored in `l_buffer` or in a colour is kept as text. What
  the console does with a text colour is not modelled, and nothing reads `l_buffer`.
  A text callback and an empty slot both fail as `NotCallable` when called.
- Config.UnBindKey and Config.UnBindExitKey act on the first mode. The source looks the
  first mode's name up in a table from names to modes, which finds that same mode
  unless two modes share a name.

=== FILE: common.dfy ===
/** Values shared by every part of the engine model. */
module Common {

  /** Python's `None`-or-value. */
  datatype Option<T> = None | Some(value: T)

  /** The exceptions the engine raises. */
  datatype Error =
    | KeyboardInterrupt                      // the abort signal, re-raised
    | MissingAttribute(name: string)         // an attribute read before anything assigned it
    | ReadOnlyAttribute(name: string)        // an attribute that cannot be assigned
    | NotImplemented(message: string)        // NotImplementedError
    | ReadlineError(message: string)         // the engine's own error class
    | NotCallable                            // calling a callback slot that holds no function
    | TypeError(message: string)             // arithmetic on a text, or a text where a type is checked
    | BadKeyDescription(description: string) // a key description the decoder rejects

  /** A value, or the exception that escaped instead. */
  datatype Result<T> = Ok(value: T) | Err(error: Error)
}

=== FILE: config.dfy ===
/** The configuration side of the engine: `parse_and_bind`, the options a `set` line
    assigns, the bell, and the unbinding functions the start-up script is given. */
module Config {
  import opened Common
  import opened PyText
  import opened Console
  import opened Interrupt
  import opened Statements
  import opened EngineState

  /** Attribute names a `set` line can reach that hold the engine's collaborators, the
      prompt positions it reads back, or the methods the modelled operations call.
      Assigning text to one of them breaks the engine in ways this model does not
      follow, so `SetAttribute` promises nothing about the rest of the state for them. */
  const Shadowed: set<string> := {
    "mode", "editingmodes", "console", "prompt_begin_pos", "prompt_end_pos", "size",
    "parse_and_bind", "readline", "readline_setup", "process_keyevent", "keyboard_poll",
    "get_line_buffer", "add_history", "callback_handler_install", "callback_handler_remove",
    "callback_read_char", "event_available", "handle_ctrl_c", "_bell", "_clear_after",
    "_set_cursor", "_print_prompt", "_update_prompt_pos", "_update_line",
    "_readline_from_keyboard", "_readline_from_keyboard_poll", "_get_prompt", "_set_prompt"}

  /** The names `SetAttribute` sends to a field of the model. */
  const Routed: set<string> := {
    "bell_style", "allow_ctrl_c", "debug", "ctrl_c_tap_time_interval", "prompt",
    "prompt_color", "command_color", "selection_color", "ctrl_c_timeout", "callback", "l_buffer"}

  /** The names of the descriptors every instance of a new-style class has, which refuse
      a text: `__class__` and `__dict__` check the type of the value, and `__weakref__`
      cannot be assigned at all. */
  const Guarded: set<string> := TypeChecked + {"__weakref__"}
  const TypeChecked: set<string> := {"__class__", "__dict__"}

  /** What `except AttributeError` catches. */
  predicate IsAttributeError(err: Error) {
    err.MissingAttribute? || err.ReadOnlyAttribute?
  }

  /** The interpreter's messages for a text assigned to `__class__` or `__dict__`. */
  const NotAClass := TypeError("__class__ must be set to new-style class, not 'unicode' object")
  const NotADict := TypeError("__dict__ must be set to a dictionary, not a 'unicode'")
  const NotWritable := ReadOnlyAttribute("__weakref__")

  /** Where a `setattr` lands in the model. */
  datatype Slot =
    | BellStyle | AllowCtrlC | DebugFlag | TapWindow | ActivePrompt
    | PromptColor | CommandColor | SelectionColor | TapStamp | CallbackSlot | StrayBuffer
    | ClassSlot | DictSlot | WeakrefSlot  // the `Guarded` names
    | Collaborator   // one of the `Shadowed` names
    | Recorded       // any other name: kept in `attributes`

  /** The slot an attribute name designates. */
  function SlotOf(name: string): (r: Slot)
    ensures name == "bell_style" <==> r == BellStyle
    ensures name == "allow_ctrl_c" <==> r == AllowCtrlC
    ensures name == "debug" <==> r == DebugFlag
    ensures name == "ctrl_c_tap_time_interval" <==> r == TapWindow
    ensures name == "prompt" <==> r == ActivePrompt
    ensures name == "prompt_color" <==> r == PromptColor
    ensures name == "command_color" <==> r == CommandColor
    ensures name == "selection_color" <==> r == SelectionColor
    ensures name == "ctrl_c_timeout" <==> r == TapStamp
    ensures name == "callback" <==> r == CallbackSlot
    ensures name == "l_buffer" <==> r == StrayBuffer
    ensures name == "__class__" <==> r == ClassSlot
    ensures name == "__dict__" <==> r == DictSlot
    ensures name == "__weakref__" <==> r == WeakrefSlot
    ensures r == Recorded <==> name !in Routed && name !in Shadowed && name !in Guarded
    ensures !(r.Collaborator? || r.Recorded? || Refused(r)) <==> name in Routed
  {
    if name in Routed then RoutedSlot(name)
    else if name in Guarded then GuardedSlot(name)
    else if name in Shadowed then Collaborator
    else Recorded
  }

  /** The slots whose descriptor refuses a text. */
  predicate Refused(slot: Slot) {
    slot.ClassSlot? || slot.DictSlot? || slot.WeakrefSlot?
  }

  function RoutedSlot(name: string): (r: Slot)
    requires name in Routed
    ensures name == "bell_style" <==> r == BellStyle
    ensures name == "allow_ctrl_c" <==> r == AllowCtrlC
    ensures name == "debug" <==> r == DebugFlag
    ensures name == "ctrl_c_tap_time_interval" <==> r == TapWindow
    ensures name == "prompt" <==> r == ActivePrompt
    ensures name == "prompt_color" <==> r == PromptColor
    ensures name == "command_color" <==> r == CommandColor
    ensures name == "selection_color" <==> r == SelectionColor
    ensures name == "ctrl_c_timeout" <==> r == TapStamp
    ensures name == "callback" <==> r == CallbackSlot
    ensures name == "l_buffer" <==> r == StrayBuffer
    ensures !(r.Collaborator? || r.Recorded? || Refused(r))
  {
    if name == "bell_style" then BellStyle
    else if name == "allow_ctrl_c" then AllowCtrlC
    else if name == "debug" then DebugFlag
    else if name == "ctrl_c_tap_time_interval" then TapWindow
    else if name == "prompt" then ActivePrompt
    else if name == "prompt_color" then PromptColor
    else if name == "command_color" then CommandColor
    else if name == "selection_color" then SelectionColor
    else if name == "ctrl_c_timeout" then TapStamp
    else if name == "callback" then CallbackSlot
    else StrayBuffer
  }

  function GuardedSlot(name: string): (r: Slot)
    requires name in Guarded
    ensures name == "__class__" <==> r == ClassSlot
    ensures name == "__dict__" <==> r == DictSlot
    ensures name == "__weakref__" <==> r == WeakrefSlot
    ensures Refused(r)
  {
    if name == "__class__" then ClassSlot
    else if name == "__dict__" then DictSlot
    else WeakrefSlot
  }

  /** Assigns a text to a slot; `name` is kept for a recorded attribute. A refusing
      descriptor raises and changes nothing. */
  function Assign(e: Engine, slot: Slot, name: string, value: string): (r: Result<Engine>)
    requires e.Valid()
    ensures r.Err? <==> Refused(slot)
    ensures slot == ClassSlot ==> r == Err(NotAClass)
    ensures slot == DictSlot ==> r == Err(NotADict)
    ensures slot == WeakrefSlot ==> r == Err(NotWritable)
    ensures !Refused(slot) ==> r == Ok(Store(e, slot, name, value))
  {
    match slot
    case ClassSlot => Err(NotAClass)
    case DictSlot => Err(NotADict)
    case WeakrefSlot => Err(NotWritable)
    case _ => Ok(Store(e, slot, name, value))
  }

  /** Stores a text in a slot that accepts one: each slot replaces exactly one field. */
  function Store(e: Engine, slot: Slot, name: string, value: string): (r: Engine)
    requires e.Valid() && !Refused(slot)
    ensures r.Valid() && r.active == e.active && |r.modes| == |e.modes|
    ensures slot != ActivePrompt ==> r.modes == e.modes
    ensures r.screen == e.screen
    ensures slot != TapStamp ==> r.lastTap == e.lastTap
    ensures slot != CallbackSlot ==> r.callbackInstalled == e.callbackInstalled
    ensures !(slot.Collaborator? || slot.Recorded?) ==> r.attributes == e.attributes
    ensures slot == BellStyle ==> r == e.(bellStyle := value)
    ensures slot == AllowCtrlC ==> r == e.(allowCtrlC := value != "")
    ensures slot == DebugFlag ==> r == e.(debug := value != "")
    ensures slot == TapWindow ==> r == e.(tapWindow := Text(value))
    ensures slot == ActivePrompt ==> r == e.(modes := e.modes[e.active := e.Current().(prompt := value)])
    ensures slot == PromptColor ==> r == e.(colors := e.colors.(prompt := Named(value)))
    ensures slot == CommandColor ==> r == e.(colors := e.colors.(command := Named(value)))
    ensures slot == SelectionColor ==> r == e.(colors := e.colors.(selection := Named(value)))
    ensures slot == TapStamp ==> r == e.(lastTap := TapText(value))
    ensures slot == CallbackSlot ==> r == e.(callbackInstalled := false)
    ensures slot == StrayBuffer ==> r == e.(strayBuffer := Some(value))
    ensures slot.Collaborator? || slot.Recorded? ==> r == e.(attributes := e.attributes[name := value])
  {
    match slot
    case BellStyle => e.(bellStyle := value)
    case AllowCtrlC => e.(allowCtrlC := value != "")
    case DebugFlag => e.(debug := value != "")
    case TapWindow => e.(tapWindow := Text(value))
    case ActivePrompt => WithCurrent(e, e.Current().(prompt := value))
    case PromptColor => e.(colors := e.colors.(prompt := Named(value)))
    case CommandColor => e.(colors := e.colors.(command := Named(value)))
    case SelectionColor => e.(colors := e.colors.(selection := Named(value)))
    case TapStamp => e.(lastTap := TapText(value))
    case CallbackSlot => e.(callbackInstalled := false)
    case StrayBuffer => e.(strayBuffer := Some(value))
    case _ => e.(attributes := e.attributes[name := value])
  }

  /** `setattr(self, name, value)`. The value is always a string: the flags take its
      Python truth value, a textual tap window contains every gap, a colour becomes a
      text attribute, a textual tap time cannot be subtracted from, a textual callback
      cannot be called, and `prompt` is a property that sets the active mode's prompt.
      The instance's own descriptors refuse a text. Any other name is recorded as an
      attribute. Each routed name replaces exactly its own field. */
  function SetAttribute(e: Engine, name: string, value: string): (r: Result<Engine>)
    requires e.Valid()
    ensures r.Err? <==> name in Guarded
    ensures name == "__class__" ==> r == Err(NotAClass)
    ensures name == "__dict__" ==> r == Err(NotADict)
    ensures name == "__weakref__" ==> r == Err(NotWritable)
    ensures r.Ok? ==> r.value.Valid() && r.value.active == e.active && |r.value.modes| == |e.modes|
    ensures r.Ok? ==> forall i :: 0 <= i < |e.modes| ==>
      r.value.modes[i].keyDispatch == e.modes[i].keyDispatch && r.value.modes[i].exitKeys == e.modes[i].exitKeys
    ensures r.Ok? && name !in Shadowed ==> r.value.screen == e.screen
    ensures r.Ok? && name != "ctrl_c_timeout" ==> r.value.lastTap == e.lastTap
    ensures r.Ok? && name != "callback" ==> r.value.callbackInstalled == e.callbackInstalled
    ensures name == "bell_style" ==> r == Ok(e.(bellStyle := value))
    ensures name == "allow_ctrl_c" ==> r == Ok(e.(allowCtrlC := value != ""))
    ensures name == "debug" ==> r == Ok(e.(debug := value != ""))
    ensures name == "ctrl_c_tap_time_interval" ==> r == Ok(e.(tapWindow := Text(value)))
    ensures name == "prompt" ==> r == Ok(WithCurrent(e, e.Current().(prompt := value)))
    ensures name == "prompt_color" ==> r == Ok(e.(colors := e.colors.(prompt := Named(value))))
    ensures name == "command_color" ==> r == Ok(e.(colors := e.colors.(command := Named(value))))
    ensures name == "selection_color" ==> r == Ok(e.(colors := e.colors.(selection := Named(value))))
    ensures name == "ctrl_c_timeout" ==> r == Ok(e.(lastTap := TapText(value)))
    ensures name == "callback" ==> r == Ok(e.(callbackInstalled := false))
    ensures name == "l_buffer" ==> r == Ok(e.(strayBuffer := Some(value)))
    ensures r.Ok? && name in Routed ==> r.value.attributes == e.attributes
    ensures name !in Routed && name !in Shadowed && name !in Guarded ==>
      r == Ok(e.(attributes := e.attributes[name := value]))
  {
    Assign(e, SlotOf(name), name, value)
  }

  /** The result of `parse_and_bind`: the new state, the message printed on standard
      output when an unknown command is bound in debug mode, and the exception the
      call re-raises when the key description cannot be decoded. */
  datatype Parsed = Parsed(engine: Engine, printed: Option<string>, raised: Option<Error>)

  function UnknownCommandMessage(command: string): string {
    "pyreadline parse_and_bind error, unknown function to bind: \"" + command + "\""
  }

  /** `parse_and_bind`: a comment, a line no pattern matches and a malformed `set` line
      change nothing; a `set` line assigns the option whose name has its dashes turned
      into underscores, where an attribute error is caught and any other error raised;
      a binding line binds the decoded chord when the active mode has the command, with
      dashes turned into underscores, and otherwise changes nothing. `decode` is the
      key-description parser; a description it rejects makes the call raise. */
  function ParseAndBind(e: Engine, decode: string -> Option<KeyPress>, line: string): (r: Parsed)
    requires e.Valid()
    ensures r.engine.Valid() && |r.engine.modes| == |e.modes| && r.engine.active == e.active
    ensures StartsWith(line, "#") ==> r == Parsed(e, None, None)
    ensures Classify(line).BadSet? || Classify(line).Ignored? ==> r == Parsed(e, None, None)
    ensures Classify(line).SetOption? ==>
      var outcome := SetAttribute(e, Underscored(Classify(line).name), Classify(line).value);
      && (outcome.Ok? ==> r == Parsed(outcome.value, None, None))
      && (outcome.Err? ==> r.engine == e && r.printed.None?)
    ensures !Classify(line).Binding? ==> forall i :: 0 <= i < |e.modes| ==>
      r.engine.modes[i].keyDispatch == e.modes[i].keyDispatch
    ensures r.raised.Some? <==>
      || (Classify(line).Binding? && Underscored(Classify(line).command) in e.Current().commands
          && decode(Classify(line).key).None?)
      || (Classify(line).SetOption? && Underscored(Classify(line).name) in TypeChecked)
    ensures r.raised.Some? ==> r.engine == e && r.printed.None?
    ensures Classify(line).Binding? && r.raised.Some? ==>
      r.raised.value == BadKeyDescription(Classify(line).key)
    ensures Classify(line).SetOption? && Underscored(Classify(line).name) == "__class__" ==>
      r.raised == Some(NotAClass)
    ensures Classify(line).SetOption? && Underscored(Classify(line).name) == "__dict__" ==>
      r.raised == Some(NotADict)
    ensures Classify(line).Binding? && r.raised.None? ==>
      var command := Underscored(Classify(line).command);
      if command in e.Current().commands then
        var chord := decode(Classify(line).key).value;
        && r.engine == WithCurrent(e, e.Current().(keyDispatch := e.Current().keyDispatch[chord := command]))
        && r.printed.None?
      else
        && r.engine == e
        && (r.printed.Some? <==> e.debug)
  {
    match Classify(line)
    case Comment => Parsed(e, None, None)
    case BadSet => Parsed(e, None, None)
    case Ignored => Parsed(e, None, None)
    case SetOption(name, value) =>
      var outcome := SetAttribute(e, Underscored(name), value);
      if outcome.Ok? then Parsed(outcome.value, None, None)
      else Parsed(e, None, if IsAttributeError(outcome.error) then None else Some(outcome.error))
    case Binding(key, command) =>
      var pyName := Underscored(command);
      if pyName in e.Current().commands then
        match decode(key)
        case None => Parsed(e, None, Some(BadKeyDescription(key)))
        case Some(chord) =>
          var m := e.Current();
          Parsed(WithCurrent(e, m.(keyDispatch := m.keyDispatch[chord := pyName])), None, None)
      else
        Parsed(e, if e.debug then Some(UnknownCommandMessage(command)) else None, None)
  }

  /** After binding, the chord runs the command and every other chord keeps its
      binding: exactly that chord is bound. */
  lemma BindingIsExact(e: Engine, decode: string -> Option<KeyPress>, line: string)
    requires e.Valid()
    requires Classify(line).Binding?
    requires Underscored(Classify(line).command) in e.Current().commands
    requires decode(Classify(line).key).Some?
    ensures var r := ParseAndBind(e, decode, line).engine;
      var chord := decode(Classify(line).key).value;
      && chord in r.Current().keyDispatch
      && r.Current().keyDispatch[chord] == Underscored(Classify(line).command)
      && r.Current().keyDispatch.Keys == e.Current().keyDispatch.Keys + {chord}
      && (forall k :: k in e.Current().keyDispatch && k != chord ==>
            r.Current().keyDispatch[k] == e.Current().keyDispatch[k])
  {
  }

  /** A set line whose scans stop at `a`, `b`, `c` and `e` is classified by them. */
  lemma SetLineByScans(s: string, a: nat, b: nat, c: nat, e: nat)
    requires !StartsWith(s, "#") && StartsWith(s, "set")
    requires Span(s, 3, IsSpace) == a && Span(s, a, IsNameChar) == b && Span(s, b, IsSpace) == c
    requires 3 < a < b < c < |s| && IndexFrom(s, c, '\n') == e && All(s, e, |s|, IsSpace)
    ensures Classify(s) == SetOption(s[a..b], s[c..e])
  {
  }

  /** A set value is never empty and every non-empty string is true, so any `set` line
      for `allow-ctrl-c` or `debug` turns the flag on, whatever its value says. */
  lemma SetFlagAlwaysEnables(e: Engine, decode: string -> Option<KeyPress>, line: string)
    requires e.Valid() && Classify(line).SetOption?
    ensures Underscored(Classify(line).name) == "allow_ctrl_c" ==> ParseAndBind(e, decode, line).engine.allowCtrlC
    ensures Underscored(Classify(line).name) == "debug" ==> ParseAndBind(e, decode, line).engine.debug
  {
  }

  /** "set bell-style V", for a value V that starts with a non-blank and holds no line
      feed, is a set line naming bell-style with value V: trailing blanks stay in the
      value, because the value group is greedy. */
  lemma {:induction false} ClassifyBellStyleLine(line: string, value: string)
    requires line == "set bell-style " + value
    requires 0 < |value| && !IsSpace(value[0]) && '\n' !in value
    ensures Classify(line) == SetOption("bell-style", value)
  {
    BellStylePrefix(line, value);
    BellStyleScans(line, value);
    assert IndexFrom(line, 15, '\n') == |line| by {
      forall t | 15 <= t < |line| ensures line[t] != '\n' {
        assert line[t] == value[t - 15];
      }
      IndexFromCovers(line, 15, '\n', |line|);
    }
    SetLineByScans(line, 4, 14, 15, |line|);
    assert line[4..14] == "bell-style";
    assert line[15..] == value;
  }

  lemma BellStylePrefix(line: string, value: string)
    requires line == "set bell-style " + value
    ensures !StartsWith(line, "#") && StartsWith(line, "set")
  {
    assert line[..1][0] == 's';
    assert line[..3] == "set";
  }

  lemma BellStyleScans(line: string, value: string)
    requires line == "set bell-style " + value
    requires 0 < |value| && !IsSpace(value[0])
    ensures Span(line, 3, IsSpace) == 4 && Span(line, 4, IsNameChar) == 14
    ensures Span(line, 14, IsSpace) == 15
  {
    SpanStops(line, 3, IsSpace, 4);
    assert All(line, 4, 14, IsNameChar) by {
      forall k | 4 <= k < 14 ensures IsNameChar(line[k]) {
        assert line[4..14] == "bell-style";
        assert line[k] == line[4..14][k - 4];
      }
    }
    SpanStops(line, 4, IsNameChar, 14);
    assert line[15] == value[0];
    SpanStops(line, 14, IsSpace, 15);
  }

  /** `parse_and_bind("set bell-style V")` stores V as the bell style. */
  lemma ParseBellStyle(e: Engine, decode: string -> Option<KeyPress>, line: string, value: string)
    requires e.Valid() && line == "set bell-style " + value
    requires 0 < |value| && !IsSpace(value[0]) && '\n' !in value
    ensures var r := ParseAndBind(e, decode, line);
      r.engine.bellStyle == value && r.printed.None? && r.raised.None?
  {
    ClassifyBellStyleLine(line, value);
    BellStyleName();
  }

  lemma BellStyleName()
    ensures Underscored("bell-style") == "bell_style"
  {
  }

  /** `parse_and_bind("set bell-style none")` turns the bell off. */
  lemma SetBellStyleNone(e: Engine, decode: string -> Option<KeyPress>, line: string)
    requires e.Valid() && line == "set bell-style none"
    ensures ParseAndBind(e, decode, line).engine.bellStyle == "none"
    ensures RingBell(ParseAndBind(e, decode, line).engine.bellStyle) == Silent
  {
    assert line == "set bell-style " + "none";
    ParseBellStyle(e, decode, line, "none");
  }

  /** With a trailing blank the stored style is "none " and the bell is an error. */
  lemma SetBellStyleTrailingBlank(e: Engine, decode: string -> Option<KeyPress>, line: string)
    requires e.Valid() && line == "set bell-style none "
    ensures ParseAndBind(e, decode, line).engine.bellStyle == "none "
    ensures RingBell(ParseAndBind(e, decode, line).engine.bellStyle)
      == BellFailed(ReadlineError("Bellstyle none  unknown."))
  {
    assert line == "set bell-style " + "none ";
    ParseBellStyle(e, decode, line, "none ");
    BlankedNoneIsUnknown();
  }

  lemma BlankedNoneIsUnknown()
    ensures RingBell("none ") == BellFailed(ReadlineError("Bellstyle none  unknown."))
  {
    assert "Bellstyle " + "none " + " unknown." == "Bellstyle none  unknown.";
  }

  /** After any `set bell-style` line, the bell is silent exactly when the parsed value
      is "none". */
  lemma BellSilentIffNone(e: Engine, decode: string -> Option<KeyPress>, line: string)
    requires e.Valid() && Classify(line).SetOption? && Underscored(Classify(line).name) == "bell_style"
    ensures RingBell(ParseAndBind(e, decode, line).engine.bellStyle) == Silent
      <==> Classify(line).value == "none"
  {
  }

  /** A line that is neither a comment nor a set line, whose scans stop at `p`, `q` and
      `r` and whose key is found, is classified by them. */
  lemma BindingLineByScans(s: string, p: nat, q: nat, r: nat, key: string)
    requires !StartsWith(s, "#") && !StartsWith(s, "set")
    requires p < |s| && LastBelow(s, |s|, IsColon) == p
    requires Span(s, p + 1, IsSpace) == q && Span(s, q, IsCommandChar) == r && q < r <= |s|
    requires All(s, r, |s|, IsSpace) && KeyBefore(s, p) == Some(key)
    ensures Classify(s) == Binding(key, s[q..r])
  {
  }

  /** "Control-a: beginning-of-line" binds the chord Control-a to beginning-of-line. */
  lemma {:induction false} ClassifyBeginningOfLine(line: string)
    requires line == "Control-a: beginning-of-line"
    ensures Classify(line) == Binding("Control-a", "beginning-of-line")
  {
    ControlAPrefix(line);
    ControlASeparator(line);
    ControlACommand(line);
    ControlAKey(line);
    ControlAEnd(line);
    BindingLineByScans(line, 9, 11, 28, "Control-a");
  }

  lemma ControlAEnd(line: string)
    requires line == "Control-a: beginning-of-line"
    ensures 9 < |line| && 11 < 28 == |line| && All(line, 28, |line|, IsSpace)
    ensures line[11..28] == "beginning-of-line"
  {
  }

  lemma ControlAPrefix(line: string)
    requires line == "Control-a: beginning-of-line"
    ensures !StartsWith(line, "#") && !StartsWith(line, "set")
  {
    assert line[..1][0] == 'C';
    assert line[..3][0] == 'C';
  }

  lemma ControlASeparator(line: string)
    requires line == "Control-a: beginning-of-line"
    ensures LastBelow(line, |line|, IsColon) == 9
  {
    assert IsColon(line[9]);
    forall k | 9 < k < |line| ensures !IsColon(line[k]) {
      assert line[10..] == " beginning-of-line";
      assert line[k] == line[10..][k - 10];
    }
    LastBelowReaches(line, |line|, IsColon, 9);
  }

  lemma ControlACommand(line: string)
    requires line == "Control-a: beginning-of-line"
    ensures Span(line, 10, IsSpace) == 11 && Span(line, 11, IsCommandChar) == 28
  {
    SpanStops(line, 10, IsSpace, 11);
    assert All(line, 11, 28, IsCommandChar) by {
      forall k | 11 <= k < 28 ensures IsCommandChar(line[k]) {
        assert line[11..] == "beginning-of-line";
        assert line[k] == line[11..][k - 11];
      }
    }
    SpanStops(line, 11, IsCommandChar, 28);
  }

  lemma ControlAKey(line: string)
    requires line == "Control-a: beginning-of-line"
    ensures KeyBefore(line, 9) == Some("Control-a")
  {
    SpanStops(line, 0, IsSpace, 0);
    forall k | 0 <= k < 9 ensures line[k] != '\n' {
      assert line[..9] == "Control-a";
      assert line[k] == line[..9][k];
    }
    IndexFromCovers(line, 0, '\n', 9);
    assert line[..9] == "Control-a";
  }

  /** `parse_and_bind("Control-a: beginning-of-line")` binds the chord to
      `beginning_of_line` when the mode has it, and otherwise leaves the table alone. */
  lemma BindBeginningOfLine(e: Engine, decode: string -> Option<KeyPress>, line: string)
    requires e.Valid() && line == "Control-a: beginning-of-line"
    ensures var r := ParseAndBind(e, decode, line).engine;
      if "beginning_of_line" in e.Current().commands then
        match decode("Control-a")
        case Some(chord) => r.Current().keyDispatch == e.Current().keyDispatch[chord := "beginning_of_line"]
        case None => r == e && ParseAndBind(e, decode, line).raised == Some(BadKeyDescription("Control-a"))
      else r == e
  {
    ClassifyBeginningOfLine(line);
    BeginningOfLineName();
  }

  lemma BeginningOfLineName()
    ensures Underscored("beginning-of-line") == "beginning_of_line"
  {
  }

  // --------------------------------------------------------------- unbinding

  /** `un_bind_key(key)` from the start-up script: removes the chord from the first
      mode's key table if it is there. The script's functions capture the first mode's
      name, so they act on it whichever mode is active. `decode` is the key-description
      parser; a description it rejects raises. */
  function UnBindKey(e: Engine, decode: string -> Option<KeyPress>, key: string): (r: Result<Engine>)
    requires e.Valid()
    ensures r.Err? <==> decode(key).None?
    ensures r.Err? ==> r.error == BadKeyDescription(key)
    ensures r.Ok? ==>
      var chord := decode(key).value;
      var u := r.value;
      && u.Valid() && |u.modes| == |e.modes|
      && u == e.(modes := e.modes[0 := u.modes[0]])
      && u.modes[0] == e.modes[0].(keyDispatch := u.modes[0].keyDispatch)
      && chord !in u.modes[0].keyDispatch
      && (forall k :: k != chord ==> (k in u.modes[0].keyDispatch <==> k in e.modes[0].keyDispatch))
      && (forall k :: k in u.modes[0].keyDispatch ==> u.modes[0].keyDispatch[k] == e.modes[0].keyDispatch[k])
      && (chord !in e.modes[0].keyDispatch ==> u == e)
  {
    match decode(key)
    case None => Err(BadKeyDescription(key))
    case Some(chord) =>
      var first := e.modes[0];
      if chord in first.keyDispatch then
        Ok(e.(modes := e.modes[0 := first.(keyDispatch := first.keyDispatch - {chord})]))
      else Ok(e)
  }

  /** `un_bind_exit_key(key)`: the same for the first mode's exit keys. */
  function UnBindExitKey(e: Engine, decode: string -> Option<KeyPress>, key: string): (r: Result<Engine>)
    requires e.Valid()
    ensures r.Err? <==> decode(key).None?
    ensures r.Err? ==> r.error == BadKeyDescription(key)
    ensures r.Ok? ==>
      var u := r.value;
      && u.Valid() && |u.modes| == |e.modes|
      && u == e.(modes := e.modes[0 := u.modes[0]])
      && u.modes[0] == e.modes[0].(exitKeys := u.modes[0].exitKeys)
      && u.modes[0].exitKeys == e.modes[0].exitKeys - {decode(key).value}
      && (decode(key).value !in e.modes[0].exitKeys ==> u == e)
  {
    match decode(key)
    case None => Err(BadKeyDescription(key))
    case Some(chord) =>
      var first := e.modes[0];
      if chord in first.exitKeys then
        Ok(e.(modes := e.modes[0 := first.(exitKeys := first.exitKeys - {chord})]))
      else Ok(e)
  }

  /** With the first mode active, `un_bind_key` undoes a `parse_and_bind` that bound a
      chord the mode had not bound before: the engine is back where it started. Both
      calls decode the description with the same `decode`. */
  lemma UnBindUndoesBinding(e: Engine, decode: string -> Option<KeyPress>, line: string)
    requires e.Valid() && e.active == 0
    requires Classify(line).Binding? && Underscored(Classify(line).command) in e.Current().commands
    requires decode(Classify(line).key).Some? && decode(Classify(line).key).value !in e.modes[0].keyDispatch
    ensures UnBindKey(ParseAndBind(e, decode, line).engine, decode, Classify(line).key) == Ok(e)
  {
    var chord := decode(Classify(line).key).value;
    var bound := ParseAndBind(e, decode, line).engine;
    var u := UnBindKey(bound, decode, Classify(line).key).value;
    assert u.modes[0].keyDispatch == e.modes[0].keyDispatch;
    assert u.modes[0] == e.modes[0];
    assert u.modes == e.modes;
  }

  /** Unbinding an exit key twice is the same as unbinding it once. */
  lemma UnBindExitKeyIsIdempotent(e: Engine, decode: string -> Option<KeyPress>, key: string)
    requires e.Valid() && decode(key).Some?
    ensures var once := UnBindExitKey(e, decode, key).value;
      UnBindExitKey(once, decode, key) == Ok(once)
  {
  }

  // -------------------------------------------------------------------- bell

  datatype BellOutcome = Silent | Rang(ops: seq<ConsoleOp>) | BellFailed(error: Error)

  /** `_bell`: "none" does nothing, "audible" rings the console bell, "visible" is not
      implemented, and any other style is an error naming the style. */
  function RingBell(style: string): (r: BellOutcome)
    ensures r == Silent <==> style == "none"
    ensures r == Rang([Bell]) <==> style == "audible"
    ensures r == BellFailed(NotImplemented("Bellstyle visible is not implemented yet.")) <==> style == "visible"
    ensures r.BellFailed? && r.error.ReadlineError? <==> style !in {"none", "visible", "audible"}
    ensures r.BellFailed? && r.error.ReadlineError? ==> r.error.message == "Bellstyle " + style + " unknown."
  {
    if style == "none" then Silent
    else if style == "visible" then BellFailed(NotImplemented("Bellstyle visible is not implemented yet."))
    else if style == "audible" then Rang([Bell])
    else BellFailed(ReadlineError("Bellstyle " + style + " unknown."))
  }
}

=== FILE: console.dfy ===
/** The vocabulary of the console surface the engine drives: coordinates, colours,
    key presses, and the primitive operations it asks the console to perform. The
    console itself is not modelled; what it reports back is passed in by the caller. */
module Console {
  import opened Common

  /** A terminal cell. Columns come from the console and are never negative; rows are
      shifted up when the window scrolls and may become negative once the row they
      named has scrolled out of the window. */
  datatype Pos = Pos(x: nat, y: int)

  datatype Size = Size(w: int, h: int)

  /** `(left, top, right, bottom)` as the console's rectangle calls take it. */
  datatype Rect = Rect(left: int, top: int, right: int, bottom: int)

  /** A text attribute; `Unset` is Python's `None`, which leaves the console default.
      A `set` line stores its value as text, so a colour can also be a string. */
  datatype Color = Unset | Attr(code: int) | Named(text: string)

  /** `KeyPress(char, shift, control, meta, keyname)`. */
  datatype KeyPress = KeyPress(ch: char, shift: bool, control: bool, meta: bool, keyname: Option<string>)

  /** The key press that stands in for an interrupt the engine decides to swallow. */
  const ControlC := KeyPress('c', false, true, false, None)

  datatype ConsoleOp =
    | Cursor(visible: bool, size: Option<int>)  // show or hide the cursor
    | MoveTo(to: Pos)                           // place the cursor
    | WriteScrolling(text: string, color: Color) // write, scrolling the window as needed
    | Write(text: string)                       // plain write
    | ScrollWindow(rows: int)
    | ScrollArea(area: Rect, dx: int, dy: int)
    | ClearArea(area: Rect)
    | ClearToEndOfWindow
    | Bell
}

=== FILE: input.dfy ===
/** The input loop: one poll step (`_readline_from_keyboard_poll`), the callback
    protocol built on it (`callback_handler_install`, `callback_read_char`,
    `callback_handler_remove`) and the blocking read (`readline`).

    Every console read is an argument: the key press or interrupt a step receives,
    and what the console reports while the step redraws. */
module InputLoop {
  import opened Common
  import opened PyText
  import opened Console
  import opened Render
  import opened Interrupt
  import opened EngineState

  // ---------------------------------------------------------------- redraw

  /** What `_update_line` reads from the engine and its active mode. The selection is
      shown when it is enabled and a mark is set, at the rendered lengths of the text
      before the mark and before the point. */
  function ViewOf(e: Engine, env: Env): (v: View)
    requires e.Valid()
    ensures var b := e.Current().buffer;
      && v.prompt == e.Current().prompt
      && v.rendered == env.quote(b.text)
      && (v.selection.Some? <==> b.selectionEnabled && b.mark >= 0)
      && (v.selection.Some? ==>
            v.selection.value == (|env.quote(Take(b.text, b.mark))|, |env.quote(Take(b.text, b.point))|))
      && v.width == env.width(b.text, b.point)
  {
    var m := e.Current();
    var b := m.buffer;
    var selection :=
      if b.selectionEnabled && b.mark >= 0
      then Some((|env.quote(Take(b.text, b.mark))|, |env.quote(Take(b.text, b.point))|))
      else None;
    View(m.prompt, e.colors.prompt, e.colors.command, e.colors.selection,
         env.quote(b.text), selection, env.width(b.text, b.point), m.cursorSize)
  }

  /** The end of a redraw: the new state and the console calls made, and the exception
      that escaped, if any. */
  datatype Redrawn = Redrawn(engine: Engine, ops: seq<ConsoleOp>, failure: Option<Error>)

  /** What escapes a redraw before any prompt was printed. */
  const NoPromptPosition := MissingAttribute("prompt_begin_pos")

  /** `_update_line`: a redraw of the active mode's line, in which only the prompt
      positions change. Before any prompt was printed the positions do not exist: the
      cursor is hidden and reading them fails. */
  function UpdateLine(e: Engine, env: Env, o: RedrawObs): (r: Redrawn)
    requires e.Valid() && o.size.w > 0
    ensures r.engine == e.(screen := r.engine.screen) && SameFrame(e, r.engine)
    ensures r.failure == if e.screen.None? then Some(NoPromptPosition) else None
    ensures e.screen.None? ==> r == Redrawn(e, [Cursor(false, None)], Some(NoPromptPosition))
    ensures e.screen.Some? ==>
      && r.engine.screen == Some(Redraw(e.screen.value, ViewOf(e, env), o).screen)
      && r.ops == Redraw(e.screen.value, ViewOf(e, env), o).ops
  {
    match e.screen
    case None => Redrawn(e, [Cursor(false, None)], Some(NoPromptPosition))
    case Some(screen) =>
      var pass := Redraw(screen, ViewOf(e, env), o);
      Redrawn(e.(screen := Some(pass.screen)), pass.ops, None)
  }

  // ------------------------------------------------------------- one step

  /** What the console delivers to a step that reads: a key press, or an interrupt
      raised by the key read at a time in ticks. */
  datatype KeyInput = Pressed(key: KeyPress) | Interrupted(at: int)

  /** `True`/`False` from a step, or the exception that escapes it. */
  datatype PollOutcome = Finished(complete: bool) | Raised(error: Error)

  datatype Polled = Polled(engine: Engine, ops: seq<ConsoleOp>, outcome: PollOutcome)

  /** The engine's identity apart from the mode being edited and the things a step
      may touch: the prompt positions (which, once printed, stay), the tap clock (which,
      once a time, stays a time) and the stray paste buffer. */
  predicate SameFrame(a: Engine, b: Engine) {
    && |a.modes| == |b.modes| && a.active == b.active
    && (forall i :: 0 <= i < |a.modes| && i != a.active ==> a.modes[i] == b.modes[i])
    && a.colors == b.colors && a.allowCtrlC == b.allowCtrlC && a.tapWindow == b.tapWindow
    && a.bellStyle == b.bellStyle && a.debug == b.debug && a.attributes == b.attributes
    && a.callbackInstalled == b.callbackInstalled
    && (a.screen.Some? ==> b.screen.Some?)
    && (a.lastTap.TappedAt? ==> b.lastTap.TappedAt?)
  }

  lemma SameFrameChains(a: Engine, b: Engine, c: Engine)
    requires SameFrame(a, b) && SameFrame(b, c)
    ensures SameFrame(a, c)
  {
  }

  /** The paste branch of `_readline_from_keyboard_poll`: the first queued line is put
      into an engine-level buffer that nothing reads (the mode's buffer keeps its
      text), the line is redrawn, the queue keeps its tail, and the step reports a
      finished line. A failed redraw leaves the queue whole. */
  function PasteStep(e: Engine, env: Env, o: RedrawObs): (r: Polled)
    requires e.Valid() && o.size.w > 0 && |e.Current().pasteQueue| > 0
    ensures r.engine.Valid() && SameFrame(e, r.engine)
    ensures var q := e.Current().pasteQueue;
      && r.engine.strayBuffer == Some(q[0])
      && r.engine.lastTap == e.lastTap
      && (e.screen.Some? ==>
            && r.outcome == Finished(true)
            && r.engine.Current() == e.Current().(pasteQueue := q[1..]))
      && (e.screen.None? ==>
            r == Polled(e.(strayBuffer := Some(q[0])), [Cursor(false, None)], Raised(NoPromptPosition)))
  {
    var m := e.Current();
    var d := UpdateLine(e.(strayBuffer := Some(m.pasteQueue[0])), env, o);
    match d.failure
    case Some(err) => Polled(d.engine, d.ops, Raised(err))
    case None => Polled(WithCurrent(d.engine, m.(pasteQueue := m.pasteQueue[1..])), d.ops, Finished(true))
  }

  /** The mode's handling of a key press, after a swallowed interrupt has recorded its
      time as the last tap. */
  function Edit(e: Engine, env: Env, key: KeyPress, stamp: Option<int>): (r: Engine)
    requires e.Valid()
    ensures r.Valid() && SameFrame(e, r) && r.screen == e.screen && r.strayBuffer == e.strayBuffer
    ensures r.Current() == env.process(e.Current(), key).0
    ensures r.lastTap == (if stamp.Some? then TappedAt(stamp.value) else e.lastTap)
  {
    var stamped := if stamp.Some? then e.(lastTap := TappedAt(stamp.value)) else e;
    WithCurrent(stamped, env.process(e.Current(), key).0)
  }

  /** The key branch once a key press is in hand: the mode processes it and the line is
      redrawn. A swallowed interrupt first records its time as the last tap. A failed
      redraw comes after both. */
  function KeyStep(e: Engine, env: Env, key: KeyPress, stamp: Option<int>, o: RedrawObs): (r: Polled)
    requires e.Valid() && o.size.w > 0
    ensures r.engine.Valid() && SameFrame(e, r.engine)
    ensures r.outcome ==
      if e.screen.Some? then Finished(env.process(e.Current(), key).1) else Raised(NoPromptPosition)
    ensures r.engine.Current() == env.process(e.Current(), key).0
    ensures r.engine.lastTap == (if stamp.Some? then TappedAt(stamp.value) else e.lastTap)
    ensures r.engine.strayBuffer == e.strayBuffer
  {
    var edited := Edit(e, env, key, stamp);
    var d := UpdateLine(edited, env, o);
    SameFrameChains(e, edited, d.engine);
    Polled(d.engine, d.ops, if d.failure.Some? then Raised(d.failure.value) else Finished(env.process(e.Current(), key).1))
  }

  /** `_readline_from_keyboard_poll`. With paste lines queued, the paste branch runs and
      no key is read. Otherwise the key read's result goes to the mode; an interrupt
      goes through `handle_ctrl_c` first, and either escapes, changing nothing, or
      becomes a Control-c press. */
  function PollStep(e: Engine, env: Env, input: KeyInput, o: RedrawObs): (r: Polled)
    requires e.Valid() && o.size.w > 0
    ensures r.engine.Valid() && SameFrame(e, r.engine)
    ensures |e.Current().pasteQueue| > 0 ==> r == PasteStep(e, env, o)
    ensures |e.Current().pasteQueue| == 0 && input.Pressed? ==> r == KeyStep(e, env, input.key, None, o)
    ensures |e.Current().pasteQueue| == 0 && input.Interrupted? ==>
      match HandleCtrlC(e.allowCtrlC, e.lastTap, e.tapWindow, input.at)
      case Raise(err) => r == Polled(e, [], Raised(err))
      case Deliver(key, stamp) => r == KeyStep(e, env, ControlC, Some(input.at), o)
  {
    if |e.Current().pasteQueue| > 0 then PasteStep(e, env, o)
    else
      match input
      case Pressed(k) => KeyStep(e, env, k, None, o)
      case Interrupted(now) =>
        match HandleCtrlC(e.allowCtrlC, e.lastTap, e.tapWindow, now)
        case Raise(err) => Polled(e, [], Raised(err))
        case Deliver(key, stamp) => KeyStep(e, env, key, Some(stamp), o)
  }

  /** A step with paste lines queued reads no key: its result does not depend on what
      the console would have delivered. */
  lemma PasteReadsNoKey(e: Engine, env: Env, a: KeyInput, b: KeyInput, o: RedrawObs)
    requires e.Valid() && o.size.w > 0
    requires |e.Current().pasteQueue| > 0
    ensures PollStep(e, env, a, o) == PollStep(e, env, b, o)
  {
  }

  /** With interrupts not allowed, an interrupt always escapes the step and changes
      nothing, whatever the tap clock says. */
  lemma AbortWhenDisallowed(e: Engine, env: Env, now: int, o: RedrawObs)
    requires e.Valid() && o.size.w > 0
    requires !e.allowCtrlC && |e.Current().pasteQueue| == 0
    ensures PollStep(e, env, Interrupted(now), o) == Polled(e, [], Raised(KeyboardInterrupt))
  {
  }

  /** The double tap across two steps: a first interrupt at least the window after the
      last recorded tap is swallowed and handed to the mode as Control-c; a second one
      less than the window after the first escapes as KeyboardInterrupt. */
  lemma {:induction false} PollDoubleTap(e: Engine, env: Env, window: int, first: int, second: int,
                                         o1: RedrawObs, o2: RedrawObs)
    requires e.Valid() && o1.size.w > 0 && o2.size.w > 0
    requires e.allowCtrlC && e.tapWindow == Ticks(window) && e.lastTap.TappedAt?
    requires |e.Current().pasteQueue| == 0 && |env.process(e.Current(), ControlC).0.pasteQueue| == 0
    requires first - e.lastTap.ticks >= window && second - first < window
    ensures var one := PollStep(e, env, Interrupted(first), o1);
      && (e.screen.Some? ==> one.outcome == Finished(env.process(e.Current(), ControlC).1))
      && one.engine.lastTap == TappedAt(first)
      && PollStep(one.engine, env, Interrupted(second), o2).outcome == Raised(KeyboardInterrupt)
  {
    DoubleTapAborts(window, e.lastTap.ticks, first, second);
    var one := PollStep(e, env, Interrupted(first), o1);
    assert one.engine.allowCtrlC && one.engine.tapWindow == Ticks(window);
    assert |one.engine.Current().pasteQueue| == 0;
  }

  // ---------------------------------------------------------- callback protocol

  /** What a callback step hands to the host. */
  datatype Delivery =
    | Idle                  // the line is not finished yet
    | Delivered(line: string)  // the callback was called with this line
    | Failed(error: Error)  // an exception escaped the step

  datatype CallbackStep = CallbackStep(engine: Engine, ops: seq<ConsoleOp>, delivery: Delivery)

  /** `callback_read_char`: one poll step; when it finishes a line, the buffer text with
      a line feed is the line, a new line is written, the buffer text is appended to the
      active mode's history, and the callback is called. With no callback installed,
      calling it fails after the history was extended. An exception from the step
      escapes; it leaves the engine alone unless the redraw raised. */
  function CallbackReadChar(e: Engine, env: Env, input: KeyInput, o: RedrawObs): (r: CallbackStep)
    requires e.Valid() && o.size.w > 0
    ensures r.engine.Valid() && SameFrame(e, r.engine)
    ensures var p := PollStep(e, env, input, o);
      && (p.outcome.Raised? ==> r.delivery == Failed(p.outcome.error))
      && (p.outcome.Raised? && e.screen.Some? ==> r == CallbackStep(e, [], Failed(p.outcome.error)))
      && (p.outcome == Finished(false) ==> r == CallbackStep(p.engine, p.ops, Idle))
      && (p.outcome == Finished(true) ==>
            && (r.delivery.Delivered? <==> e.callbackInstalled)
            && (!e.callbackInstalled ==> r.delivery == Failed(NotCallable))
            && r.engine.Current() == p.engine.Current().(history := r.engine.Current().history)
            && r.engine.Current().history == p.engine.Current().history + [r.engine.Current().buffer.text]
            && r.ops == p.ops + [Write("\r\n")])
    ensures r.delivery.Delivered? ==> r.delivery.line == r.engine.Current().buffer.text + "\n"
  {
    var p := PollStep(e, env, input, o);
    match p.outcome
    case Raised(err) => CallbackStep(p.engine, p.ops, Failed(err))
    case Finished(complete) =>
      if !complete then CallbackStep(p.engine, p.ops, Idle)
      else Accept(p.engine, p.ops, e.callbackInstalled)
  }

  /** A finished line: it goes to the history and, with a handler installed, to the
      handler, followed by a line feed; without one the call fails. */
  function Accept(e: Engine, ops: seq<ConsoleOp>, installed: bool): (r: CallbackStep)
    requires e.Valid()
    ensures r.engine.Valid() && SameFrame(e, r.engine)
    ensures r.delivery.Delivered? <==> installed
    ensures !installed ==> r.delivery == Failed(NotCallable)
    ensures r.engine.Current() == e.Current().(history := r.engine.Current().history)
    ensures r.engine.Current().history == e.Current().history + [r.engine.Current().buffer.text]
    ensures r.ops == ops + [Write("\r\n")]
    ensures r.delivery.Delivered? ==> r.delivery.line == r.engine.Current().buffer.text + "\n"
  {
    var m := e.Current();
    var next := WithCurrent(e, m.(history := m.history + [m.buffer.text]));
    var ops := ops + [Write("\r\n")];
    if installed then CallbackStep(next, ops, Delivered(m.buffer.text + "\n"))
    else CallbackStep(next, ops, Failed(NotCallable))
  }

  /** A callback step that dequeues a paste line delivers the text the mode's buffer
      already held, not the pasted line, and leaves the buffer as it was. */
  lemma PasteDeliversOldBuffer(e: Engine, env: Env, input: KeyInput, o: RedrawObs)
    requires e.Valid() && o.size.w > 0
    requires e.callbackInstalled && |e.Current().pasteQueue| > 0 && e.screen.Some?
    ensures var r := CallbackReadChar(e, env, input, o);
      && r.delivery == Delivered(e.Current().buffer.text + "\n")
      && r.engine.Current().buffer == e.Current().buffer
      && r.engine.Current().pasteQueue == e.Current().pasteQueue[1..]
      && r.engine.strayBuffer == Some(e.Current().pasteQueue[0])
  {
  }

  /** Before a prompt was ever printed (no handler installed, no read started), a
      callback step delivers nothing: a key press or a paste line reaches the redraw,
      which fails for want of the prompt positions, and an interrupt escapes or fails
      the same way. The engine still has no prompt positions afterwards. */
  lemma ReadCharBeforeSetupFails(e: Engine, env: Env, input: KeyInput, o: RedrawObs)
    requires e.Valid() && o.size.w > 0 && e.screen.None?
    ensures var r := CallbackReadChar(e, env, input, o);
      && r.delivery.Failed?
      && (input.Pressed? || |e.Current().pasteQueue| > 0 ==> r.delivery.error == NoPromptPosition)
      && r.engine.screen.None?
  {
  }

  /** A fresh engine: the first callback step fails for want of the prompt positions. */
  lemma InitialReadCharFails(modes: seq<Mode>, saveattr: int, env: Env, key: KeyPress, o: RedrawObs)
    requires |modes| > 0 && o.size.w > 0
    ensures CallbackReadChar(Initial(modes, saveattr), env, Pressed(key), o).delivery == Failed(NoPromptPosition)
  {
    ReadCharBeforeSetupFails(Initial(modes, saveattr), env, Pressed(key), o);
  }

  /** Where the console puts the prompt that setup prints, and what it reports. */
  datatype PromptObs = PromptObs(at: Pos, scroll: nat, end: Pos, size: Size)

  /** `readline_setup`: the mode prepares itself for the prompt, the prompt is printed
      where the cursor is, and the line is redrawn. */
  function Setup(e: Engine, env: Env, prompt: string, po: PromptObs, o: RedrawObs): (r: (Engine, seq<ConsoleOp>))
    requires e.Valid() && o.size.w > 0
    ensures r.0.Valid() && SameFrame(e, r.0)
    ensures r.0.Current() == env.setup(e.Current(), prompt)
    ensures r.0.lastTap == e.lastTap && r.0.strayBuffer == e.strayBuffer && r.0.screen.Some?
    ensures |r.1| > 2 && r.1[0] == WriteScrolling(env.setup(e.Current(), prompt).prompt, e.colors.prompt)
    ensures r.1[2] == MoveTo(PrintPrompt(po.at, po.scroll, po.end, po.size).promptBegin)
    ensures r.0.screen == Some(Redraw(PrintPrompt(po.at, po.scroll, po.end, po.size), ViewOf(r.0, env), o).screen)
  {
    var m := env.setup(e.Current(), prompt);
    var printed := WithCurrent(e, m).(screen := Some(PrintPrompt(po.at, po.scroll, po.end, po.size)));
    var d := UpdateLine(printed, env, o);
    (d.engine, [WriteScrolling(m.prompt, e.colors.prompt)] + d.ops)
  }

  /** `callback_handler_install`: the callback is installed, then setup runs. */
  function CallbackHandlerInstall(e: Engine, env: Env, prompt: string, po: PromptObs, o: RedrawObs)
    : (r: (Engine, seq<ConsoleOp>))
    requires e.Valid() && o.size.w > 0
    ensures r.0.Valid() && r.0.callbackInstalled
    ensures r.0.Current() == env.setup(e.Current(), prompt)
    ensures r == Setup(e.(callbackInstalled := true), env, prompt, po, o)
  {
    Setup(e.(callbackInstalled := true), env, prompt, po, o)
  }

  /** `callback_handler_remove`: the callback slot is emptied and nothing else changes. */
  function CallbackHandlerRemove(e: Engine): (r: Engine)
    ensures !r.callbackInstalled && r.(callbackInstalled := e.callbackInstalled) == e
  {
    e.(callbackInstalled := false)
  }

  /** After removal, a step that finishes a line reaches no callback. */
  lemma RemovedCallbackIsNotCalled(e: Engine, env: Env, input: KeyInput, o: RedrawObs)
    requires e.Valid() && o.size.w > 0
    ensures !CallbackReadChar(CallbackHandlerRemove(e), env, input, o).delivery.Delivered?
  {
  }

  // ---------------------------------------------------------- blocking read

  /** How a blocking read ends: with a line, with an escaping exception, or (when the
      console's inputs run out first) still waiting. */
  datatype ReadOutcome = Returned(line: string) | Aborted(error: Error) | Waiting

  datatype Session = Session(engine: Engine, ops: seq<ConsoleOp>, outcome: ReadOutcome)

  /** Every step of the inputs sees a console at least one column wide. */
  predicate Drawable(inputs: seq<(KeyInput, RedrawObs)>) {
    forall step :: step in inputs ==> step.1.size.w > 0
  }

  /** A session whose console calls are preceded by `ops`. */
  function After(ops: seq<ConsoleOp>, s: Session): Session {
    Session(s.engine, ops + s.ops, s.outcome)
  }

  /** The exceptions a read can end with: the interrupt, the unset or textual tap time,
      and the missing prompt positions. */
  const ReadErrors: set<Error> :=
    {KeyboardInterrupt, MissingAttribute("ctrl_c_timeout"), UnsupportedMinus, NoPromptPosition}

  /** One pass of the loop in `_readline_from_keyboard` with the end of `readline`: a
      step that finishes the line writes a new line and returns the buffer text with a
      line feed; an exception ends the read; otherwise the read goes on (`Waiting`). */
  function Advance(e: Engine, env: Env, step: (KeyInput, RedrawObs)): (r: Session)
    requires e.Valid() && step.1.size.w > 0
    ensures r.engine.Valid() && SameFrame(e, r.engine)
    ensures r.outcome.Returned? ==>
      && r.outcome.line == r.engine.Current().buffer.text + "\n"
      && |r.ops| > 0 && r.ops[|r.ops| - 1] == Write("\r\n")
    ensures r.outcome.Aborted? ==> r.outcome.error in ReadErrors
    ensures r.outcome.Aborted? && e.screen.Some? ==>
      && r.engine == e && r.ops == []
      && (!e.allowCtrlC || e.lastTap.TappedAt? ==> r.outcome.error == KeyboardInterrupt)
  {
    var p := PollStep(e, env, step.0, step.1);
    match p.outcome
    case Raised(err) => Session(p.engine, p.ops, Aborted(err))
    case Finished(complete) =>
      if complete then
        Session(p.engine, p.ops + [Write("\r\n")], Returned(p.engine.Current().buffer.text + "\n"))
      else Session(p.engine, p.ops, Waiting)
  }

  /** `_readline_from_keyboard` followed by the end of `readline`: poll until a step
      finishes the line or raises. Each input is the step's key read and what the
      console reports while it redraws. Once a prompt was printed, an aborted read
      changes nothing in the engine at its last step, and when interrupts are not
      allowed or the tap time is a time, it can only abort with KeyboardInterrupt. */
  function Run(e: Engine, env: Env, inputs: seq<(KeyInput, RedrawObs)>): (r: Session)
    requires e.Valid()
    requires Drawable(inputs)
    ensures r.engine.Valid() && SameFrame(e, r.engine)
    ensures r.outcome.Returned? ==>
      && r.outcome.line == r.engine.Current().buffer.text + "\n"
      && |r.ops| > 0 && r.ops[|r.ops| - 1] == Write("\r\n")
    ensures r.outcome.Aborted? ==> r.outcome.error in ReadErrors
    ensures r.outcome.Aborted? && e.screen.Some? && (!e.allowCtrlC || e.lastTap.TappedAt?) ==>
      r.outcome.error == KeyboardInterrupt
    ensures |inputs| == 0 ==> r == Session(e, [], Waiting)
    decreases |inputs|
  {
    if |inputs| == 0 then Session(e, [], Waiting)
    else
      var a := Advance(e, env, inputs[0]);
      if a.outcome.Waiting? then
        var rest := Run(a.engine, env, inputs[1..]);
        SameFrameChains(e, a.engine, rest.engine);
        After(a.ops, rest)
      else a
  }

  /** With a paste line queued, a blocking read returns after one step, with the text
      the mode's buffer held before, and the queue keeps its tail. */
  lemma PasteReturnsAtOnce(e: Engine, env: Env, inputs: seq<(KeyInput, RedrawObs)>)
    requires e.Valid() && |inputs| > 0
    requires Drawable(inputs)
    requires |e.Current().pasteQueue| > 0
    ensures var r := Run(e, env, inputs);
      && r.outcome == (if e.screen.Some? then Returned(e.Current().buffer.text + "\n") else Aborted(NoPromptPosition))
      && (e.screen.Some? ==> r.engine.Current().pasteQueue == e.Current().pasteQueue[1..])
      && r.engine == Run(e, env, inputs[..1]).engine
  {
  }

  /** Keys the mode does not finish the line on are read one after another: a read
      whose first step leaves the line open continues with the rest of the inputs. */
  lemma RunContinues(e: Engine, env: Env, inputs: seq<(KeyInput, RedrawObs)>)
    requires e.Valid() && |inputs| > 0
    requires Drawable(inputs)
    requires PollStep(e, env, inputs[0].0, inputs[0].1).outcome == Finished(false)
    ensures var p := PollStep(e, env, inputs[0].0, inputs[0].1);
      Run(e, env, inputs).outcome == Run(p.engine, env, inputs[1..]).outcome
  {
  }

  /** One step of `Run`: a step that leaves the line open is followed by the rest. */
  lemma RunUnfolds(e: Engine, env: Env, inputs: seq<(KeyInput, RedrawObs)>)
    requires e.Valid() && |inputs| > 0 && Drawable(inputs)
    ensures var a := Advance(e, env, inputs[0]);
      && (a.outcome.Waiting? ==> Run(e, env, inputs) == After(a.ops, Run(a.engine, env, inputs[1..])))
      && (!a.outcome.Waiting? ==> Run(e, env, inputs) == a)
  {
  }

  lemma AfterAfter(a: seq<ConsoleOp>, b: seq<ConsoleOp>, s: Session)
    ensures After(a, After(b, s)) == After(a + b, s)
  {
    assert a + (b + s.ops) == (a + b) + s.ops;
  }

  /** One turn of the loop below, with `ops` the calls made so far. */
  lemma LoopStep(r: Engine, env: Env, inputs: seq<(KeyInput, RedrawObs)>, i: nat, ops: seq<ConsoleOp>)
    requires r.Valid() && i < |inputs| && Drawable(inputs[i..])
    ensures inputs[i].1.size.w > 0 && Drawable(inputs[i + 1..])
    ensures var a := Advance(r, env, inputs[i]);
      && (a.outcome.Waiting? ==>
            After(ops, Run(r, env, inputs[i..])) == After(ops + a.ops, Run(a.engine, env, inputs[i + 1..])))
      && (!a.outcome.Waiting? ==>
            After(ops, Run(r, env, inputs[i..])) == Session(a.engine, ops + a.ops, a.outcome))
  {
    assert inputs[i..][0] == inputs[i];
    assert inputs[i..][1..] == inputs[i + 1..];
    var a := Advance(r, env, inputs[i]);
    RunUnfolds(r, env, inputs[i..]);
    if a.outcome.Waiting? {
      AfterAfter(ops, a.ops, Run(a.engine, env, inputs[i + 1..]));
    }
  }

  /** `_readline_from_keyboard` with the end of `readline`, as a loop: the loop
      carries the part of the read still to come. */
  method ReadLoop(e: Engine, env: Env, inputs: seq<(KeyInput, RedrawObs)>)
    returns (r: Engine, ops: seq<ConsoleOp>, outcome: ReadOutcome)
    requires e.Valid()
    requires Drawable(inputs)
    ensures r.Valid() && SameFrame(e, r)
    ensures outcome.Returned? ==> outcome.line == r.Current().buffer.text + "\n"
    ensures Session(r, ops, outcome) == Run(e, env, inputs)
  {
    r, ops, outcome := e, [], Waiting;
    var i := 0;
    var done := false;
    while i < |inputs| && !done
      invariant 0 <= i <= |inputs|
      invariant r.Valid() && Drawable(inputs[i..])
      invariant !done ==> outcome == Waiting
      invariant !done ==> Run(e, env, inputs) == After(ops, Run(r, env, inputs[i..]))
      invariant done ==> Run(e, env, inputs) == Session(r, ops, outcome)
      decreases |inputs| - i, !done
    {
      LoopStep(r, env, inputs, i, ops);
      var a := Advance(r, env, inputs[i]);
      done := !a.outcome.Waiting?;
      r, ops, outcome := a.engine, ops + a.ops, a.outcome;
      i := i + 1;
    }
    if !done {
      assert inputs[i..] == [];
    }
  }

  /** `readline`: setup, the tap clock set to the time the read starts, then the
      polling loop. */
  method Readline(e: Engine, env: Env, prompt: string, po: PromptObs, o: RedrawObs, start: int,
                  inputs: seq<(KeyInput, RedrawObs)>)
    returns (r: Engine, ops: seq<ConsoleOp>, outcome: ReadOutcome)
    requires e.Valid() && o.size.w > 0
    requires Drawable(inputs)
    ensures r.Valid()
    ensures outcome.Returned? ==> outcome.line == r.Current().buffer.text + "\n"
    ensures outcome.Aborted? ==> outcome.error == KeyboardInterrupt
    ensures var s := Run(Setup(e, env, prompt, po, o).0.(lastTap := TappedAt(start)), env, inputs);
      r == s.engine && outcome == s.outcome && ops == Setup(e, env, prompt, po, o).1 + s.ops
  {
    var ready := Setup(e, env, prompt, po, o);
    var loopOps;
    r, loopOps, outcome := ReadLoop(ready.0.(lastTap := TappedAt(start)), env, inputs);
    ops := ready.1 + loopOps;
  }
}

=== FILE: interrupt.dfy ===
/** Interrupt-tap disambiguation (`handle_ctrl_c`): an interrupt either aborts the read
    or is swallowed and handed to the editing mode as a Control-c key press.

    Time is counted in integer ticks of one millisecond. */
module Interrupt {
  import opened Common
  import opened Console

  /** The tap window. It starts as 0.3 s; a `set ctrl-c-tap-time-interval …` line stores
      the text of the value instead, and Python 2 orders every number below every
      string, so a textual window contains every gap. */
  datatype Interval = Ticks(ticks: int) | Text(text: string)

  const DefaultInterval: Interval := Ticks(300)

  /** `now - last < interval` as Python 2 evaluates it. */
  predicate Within(gap: int, window: Interval) {
    match window
    case Ticks(t) => gap < t
    case Text(_) => true
  }

  datatype Tap =
    | Raise(error: Error)                 // the read ends with this exception
    | Deliver(key: KeyPress, stamp: int)  // the key press to process, and the new tap time

  /** `ctrl_c_timeout`: unset until a blocking read starts, then the time of the last
      swallowed tap; a `set ctrl-c-timeout …` line can make it text. */
  datatype TapTime = NotSet | TappedAt(ticks: int) | TapText(text: string)

  /** What Python 2 raises for `number - string`. */
  const UnsupportedMinus := TypeError("unsupported operand type(s) for -")

  /** `handle_ctrl_c` for an interrupt arriving at `now`. Reading an unset tap time
      fails, and subtracting a textual one fails. */
  function HandleCtrlC(allow: bool, last: TapTime, window: Interval, now: int): (r: Tap)
    ensures !allow ==> r == Raise(KeyboardInterrupt)
    ensures allow && last.NotSet? ==> r == Raise(MissingAttribute("ctrl_c_timeout"))
    ensures allow && last.TapText? ==> r == Raise(UnsupportedMinus)
    ensures r.Deliver? <==> allow && last.TappedAt? && !Within(now - last.ticks, window)
    ensures r.Raise? && r.error == KeyboardInterrupt <==>
              !allow || (last.TappedAt? && Within(now - last.ticks, window))
    ensures r.Deliver? ==> r.key == ControlC && r.stamp == now
  {
    if allow then
      match last
      case NotSet => Raise(MissingAttribute("ctrl_c_timeout"))
      case TapText(_) => Raise(UnsupportedMinus)
      case TappedAt(t) => if Within(now - t, window) then Raise(KeyboardInterrupt) else Deliver(ControlC, now)
    else Raise(KeyboardInterrupt)
  }

  /** A double tap aborts: after a swallowed tap at `first`, a second interrupt less
      than the window later raises, whatever happened before the first. */
  lemma DoubleTapAborts(window: int, last: int, first: int, second: int)
    requires first - last >= window
    requires second - first < window
    ensures var one := HandleCtrlC(true, TappedAt(last), Ticks(window), first);
      && one == Deliver(ControlC, first)
      && HandleCtrlC(true, TappedAt(one.stamp), Ticks(window), second) == Raise(KeyboardInterrupt)
  {
  }

  /** Separated taps are each swallowed: two interrupts at least the window apart, the
      first at least the window after the last recorded tap, both become Control-c. */
  lemma SeparatedTapsDeliver(window: int, last: int, first: int, second: int)
    requires first - last >= window
    requires second - first >= window
    ensures var one := HandleCtrlC(true, TappedAt(last), Ticks(window), first);
      && one == Deliver(ControlC, first)
      && HandleCtrlC(true, TappedAt(one.stamp), Ticks(window), second) == Deliver(ControlC, second)
  {
  }

  /** Once the window is textual, no tap is ever swallowed. */
  lemma TextWindowAlwaysAborts(text: string, last: TapTime, now: int)
    requires last.TappedAt?
    ensures HandleCtrlC(true, last, Text(text), now) == Raise(KeyboardInterrupt)
  {
  }
}

=== FILE: pytext.dfy ===
/** The pieces of Python 2 string semantics the engine relies on: the character
    classes of its regular expressions, clamping slices, and the scans the regular
    expressions perform. */
module PyText {

  /** `\s` of a pattern compiled without the UNICODE flag. */
  predicate IsSpace(c: char) {
    c == ' ' || c == '\t' || c == '\n' || c == '\r' || c == '\U{000B}' || c == '\U{000C}'
  }

  /** `.`: every character except a line feed. */
  predicate IsNotNewline(c: char) {
    c != '\n'
  }

  /** `[-a-zA-Z0-9]`, the characters of an option name. */
  predicate IsNameChar(c: char) {
    ('a' <= c <= 'z') || ('A' <= c <= 'Z') || ('0' <= c <= '9') || c == '-'
  }

  /** `[-a-zA-Z]`, the characters of a command name. */
  predicate IsCommandChar(c: char) {
    ('a' <= c <= 'z') || ('A' <= c <= 'Z') || c == '-'
  }

  predicate IsColon(c: char) {
    c == ':'
  }

  /** Every character of `s[lo..hi]` is in class `p`. */
  predicate All(s: string, lo: int, hi: int, p: char -> bool)
    requires 0 <= lo && hi <= |s|
  {
    forall k :: lo <= k < hi ==> p(s[k])
  }

  predicate StartsWith(s: string, prefix: string) {
    |prefix| <= |s| && s[..|prefix|] == prefix
  }

  function Min(a: int, b: int): int {
    if a <= b then a else b
  }

  /** `s[:n]` for a non-negative `n`: Python clamps the bound to the length. */
  function Take(s: string, n: nat): (r: string)
    ensures |r| == Min(n, |s|)
    ensures r <= s
  {
    s[..Min(n, |s|)]
  }

  /** `s[i:j]` for non-negative bounds: both bounds clamp, a reversed range is empty. */
  function Slice(s: string, i: nat, j: nat): (r: string)
    ensures |r| <= |s|
  {
    var lo := Min(i, |s|);
    var hi := Min(j, |s|);
    if lo < hi then s[lo..hi] else []
  }

  /** `s[n:]` for a non-negative `n`. */
  function Drop(s: string, n: nat): (r: string)
    ensures |r| == |s| - Min(n, |s|)
  {
    s[Min(n, |s|)..]
  }

  /** The end of the longest run of class `p` that starts at `i`: what a greedy
      `p+`/`p*` reaches. */
  function Span(s: string, i: nat, p: char -> bool): (j: nat)
    requires i <= |s|
    ensures i <= j <= |s|
    ensures forall k :: i <= k < j ==> p(s[k])
    ensures j == |s| || !p(s[j])
    decreases |s| - i
  {
    if i == |s| || !p(s[i]) then i else Span(s, i + 1, p)
  }

  /** The first position at or after `i` that holds `c`, or `|s|` when there is none. */
  function IndexFrom(s: string, i: nat, c: char): (j: nat)
    requires i <= |s|
    ensures i <= j <= |s|
    ensures forall k :: i <= k < j ==> s[k] != c
    ensures j < |s| ==> s[j] == c
    decreases |s| - i
  {
    if i == |s| || s[i] == c then i else IndexFrom(s, i + 1, c)
  }

  /** The last position below `hi` whose character is in class `p`, or -1. */
  function LastBelow(s: string, hi: nat, p: char -> bool): (j: int)
    requires hi <= |s|
    ensures -1 <= j < hi
    ensures 0 <= j ==> p(s[j])
    ensures forall k :: j < k < hi ==> !p(s[k])
  {
    if hi == 0 then -1 else if p(s[hi - 1]) then hi - 1 else LastBelow(s, hi - 1, p)
  }

  /** `s.replace('-', '_')`. */
  function Underscored(s: string): (r: string)
    ensures |r| == |s|
    ensures forall k :: 0 <= k < |s| ==> r[k] == (if s[k] == '-' then '_' else s[k])
    ensures '-' !in r
  {
    seq(|s|, k requires 0 <= k < |s| => if s[k] == '-' then '_' else s[k])
  }

  /** A scan over a run of class `p` reaches at least the end of that run. */
  lemma {:induction false} SpanCovers(s: string, i: nat, p: char -> bool, k: nat)
    requires i <= k <= |s|
    requires All(s, i, k, p)
    ensures Span(s, i, p) >= k
    decreases k - i
  {
    if i < k {
      SpanCovers(s, i + 1, p, k);
    }
  }

  /** A run of class `p` that ends at a character outside the class is exactly what
      the scan reports. */
  lemma {:induction false} SpanStops(s: string, i: nat, p: char -> bool, k: nat)
    requires i <= k <= |s|
    requires All(s, i, k, p)
    requires k == |s| || !p(s[k])
    ensures Span(s, i, p) == k
    decreases k - i
  {
    if i < k {
      SpanStops(s, i + 1, p, k);
    }
  }

  /** The search for `c` passes every position before `k` that does not hold it. */
  lemma {:induction false} IndexFromCovers(s: string, i: nat, c: char, k: nat)
    requires i <= k <= |s|
    requires forall t :: i <= t < k ==> s[t] != c
    ensures IndexFrom(s, i, c) >= k
    decreases k - i
  {
    if i < k {
      IndexFromCovers(s, i + 1, c, k);
    }
  }

  /** The backwards search finds a witness of class `p` at `k` or something later. */
  lemma {:induction false} LastBelowReaches(s: string, hi: nat, p: char -> bool, k: nat)
    requires k < hi <= |s|
    requires p(s[k])
    ensures LastBelow(s, hi, p) >= k
    decreases hi
  {
    if hi - 1 > k && !p(s[hi - 1]) {
      LastBelowReaches(s, hi - 1, p, k);
    }
  }
}

=== FILE: render.dfy ===
/** The render engine: one redraw pass (`_update_line`) and the pieces it is made of:
    printing the prompt (`_print_prompt`), painting the buffer with its selection,
    reserving the bottom row, shifting the prompt positions (`_update_prompt_pos`),
    erasing leftovers (`_clear_after`) and placing the cursor (`_set_cursor`).

    The console is not modelled. What it reports during a pass (how many rows each
    write scrolled, where the cursor ended up, its size) is given as a `RedrawObs`. */
module Render {
  import opened Common
  import opened PyText
  import opened Console

  /** The render engine's state: where the prompt starts and ends, and the console
      size read when the prompt was last printed. */
  datatype Screen = Screen(promptBegin: Pos, promptEnd: Pos, size: Size)

  /** What a pass reads from the engine and the active mode. */
  datatype View = View(
    prompt: string,
    promptColor: Color,
    commandColor: Color,
    selectionColor: Color,
    rendered: string,               // the buffer's quoted text
    selection: Option<(nat, nat)>,  // rendered offsets of mark and point, when a selection is shown
    width: nat,                     // visible width of the buffer up to the point
    cursorSize: int)                // the cursor shape the mode asks for

  /** What the console reports during a pass. */
  datatype RedrawObs = RedrawObs(
    promptAt: Pos,      // cursor read back after moving to the stored prompt start
    promptScroll: nat,  // rows the prompt write scrolled
    promptEnd: Pos,     // cursor right after the prompt write
    size: Size,         // console size during the pass
    paintScroll: nat,   // rows the last text write of the paint scrolled
    afterPaint: Pos,    // cursor after painting
    clearFrom: Pos,     // cursor when leftovers are erased
    fastClear: bool)    // the console offers `clear_to_end_of_window`

  // ------------------------------------------------------------------ cursor

  /** The loop of `_set_cursor`: while the column is at or past the width, take one
      width off it and move one row down. */
  function Wrap(x: nat, y: int, w: int): (r: Pos)
    requires w > 0
    ensures r.x == x % w
    ensures r.y == y + x / w
    decreases x
  {
    if x >= w then
      DivModStep(x, w);
      Wrap(x - w, y + 1, w)
    else Pos(x, y)
  }

  lemma DivModStep(x: int, w: int)
    requires x >= w > 0
    ensures (x - w) % w == x % w
    ensures (x - w) / w == x / w - 1
  {
    DivModUnique(x - w, w, x / w - 1, x % w);
  }

  /** Quotient and remainder are the only pair that rebuilds `x` with a remainder below `w`. */
  lemma DivModUnique(x: int, w: int, q: int, m: int)
    requires w > 0 && 0 <= m < w && x == q * w + m
    ensures x / w == q && x % w == m
  {
    var q0, m0 := x / w, x % w;
    var d := q - q0;
    assert d * w == m0 - m;
    MulAwayFromZero(d, w);
  }

  lemma {:induction false} MulAwayFromZero(d: int, w: int)
    requires w > 0
    ensures d >= 1 ==> d * w >= w
    ensures d <= -1 ==> d * w <= -w
    decreases if d < 0 then -d else d
  {
    if d > 1 {
      MulAwayFromZero(d - 1, w);
      assert d * w == (d - 1) * w + w;
    } else if d < -1 {
      MulAwayFromZero(d + 1, w);
      assert d * w == (d + 1) * w - w;
    }
  }

  /** `_set_cursor`: the insertion point lies `width` cells after the prompt's end, on a
      terminal `w` cells wide. */
  function SetCursor(end: Pos, width: nat, w: int): (r: Pos)
    requires w > 0
    ensures 0 <= r.x < w
    ensures r.x == (end.x + width) % w
    ensures r.y == end.y + (end.x + width) / w
  {
    Wrap(end.x + width, end.y, w)
  }

  // ------------------------------------------------------- prompt positions

  /** `_print_prompt`: the prompt was written starting at `at`, the write scrolled
      `scrolled` rows and left the cursor at `end`. */
  function PrintPrompt(at: Pos, scrolled: nat, end: Pos, size: Size): (r: Screen)
    ensures r.promptBegin.x == at.x
    ensures r.promptBegin.y + scrolled == at.y
    ensures r.promptEnd == end
    ensures r.size == size
  {
    Screen(Pos(at.x, at.y - scrolled), end, size)
  }

  /** `_update_prompt_pos(n)`: after the window scrolled `n` rows, both prompt
      positions are `n` rows higher. */
  function UpdatePromptPos(s: Screen, n: int): (r: Screen)
    ensures r.promptBegin == Pos(s.promptBegin.x, s.promptBegin.y - n)
    ensures r.promptEnd == Pos(s.promptEnd.x, s.promptEnd.y - n)
    ensures r.size == s.size
    ensures n == 0 ==> r == s
  {
    if n != 0 then
      s.(promptBegin := Pos(s.promptBegin.x, s.promptBegin.y - n),
         promptEnd := Pos(s.promptEnd.x, s.promptEnd.y - n))
    else s
  }

  /** Two shifts make one: the bookkeeping can be done pass by pass. */
  lemma UpdatePromptPosAdds(s: Screen, a: int, b: int)
    ensures UpdatePromptPos(UpdatePromptPos(s, a), b) == UpdatePromptPos(s, a + b)
  {
  }

  /** A shift is undone by the opposite shift. */
  lemma UpdatePromptPosInverse(s: Screen, n: int)
    ensures UpdatePromptPos(UpdatePromptPos(s, n), -n) == s
  {
  }

  // ---------------------------------------------------------------- painting

  /** The selection's rendered offsets, smaller first. */
  function Ordered(mark: nat, point: nat): (r: (nat, nat))
    ensures r.0 <= r.1
    ensures multiset{r.0, r.1} == multiset{mark, point}
  {
    if mark > point then (point, mark) else (mark, point)
  }

  /** One `write_scrolling` call of the paint. */
  datatype Painted = Painted(text: string, color: Color)

  function Joined(spans: seq<Painted>): string {
    if |spans| == 0 then [] else spans[0].text + Joined(spans[1..])
  }

  /** The rendered text cut at two ordered offsets reads back as the whole text,
      whatever the offsets, since slicing clamps them. */
  lemma SlicesJoin(s: string, a: nat, b: nat)
    requires a <= b
    ensures Take(s, a) + Slice(s, a, b) + Drop(s, b) == s
  {
    var lo, hi := Min(a, |s|), Min(b, |s|);
    assert Take(s, a) == s[..lo];
    assert Slice(s, a, b) == s[lo..hi];
    assert Drop(s, b) == s[hi..];
    assert s[..lo] + s[lo..hi] + s[hi..] == s;
  }

  /** Step 3 of a pass: the rendered text in the command colour, or, with a selection,
      three contiguous spans whose middle one, between the two offsets, is in the
      selection colour. */
  function Paint(v: View): (r: seq<Painted>)
    ensures Joined(r) == v.rendered
    ensures v.selection.None? ==> |r| == 1 && r[0].color == v.commandColor
    ensures v.selection.Some? ==>
      var lo := Min(v.selection.value.0, v.selection.value.1);
      var hi := if v.selection.value.0 < v.selection.value.1 then v.selection.value.1 else v.selection.value.0;
      && |r| == 3
      && r[0].color == v.commandColor && r[1].color == v.selectionColor && r[2].color == v.commandColor
      && |r[0].text| == Min(lo, |v.rendered|)
      && |r[0].text| + |r[1].text| == Min(hi, |v.rendered|)
  {
    match v.selection
    case None => [Painted(v.rendered, v.commandColor)]
    case Some(offsets) =>
      var (start, stop) := Ordered(offsets.0, offsets.1);
      SlicesJoin(v.rendered, start, stop);
      var r := [Painted(Take(v.rendered, start), v.commandColor),
                Painted(Slice(v.rendered, start, stop), v.selectionColor),
                Painted(Drop(v.rendered, stop), v.commandColor)];
      assert Joined(r[2..]) == r[2].text;
      assert Joined(r[1..]) == r[1].text + Joined(r[2..]);
      r
  }

  /** One scrolling write per span, in its colour. */
  function Writes(spans: seq<Painted>): (r: seq<ConsoleOp>)
    ensures |r| == |spans|
    ensures forall op :: op in r ==> op.WriteScrolling?
    ensures forall i :: 0 <= i < |spans| ==> r[i] == WriteScrolling(spans[i].text, spans[i].color)
  {
    seq(|spans|, i requires 0 <= i < |spans| => WriteScrolling(spans[i].text, spans[i].color))
  }

  // ------------------------------------------------------------- scrolling

  /** Step 4 of a pass: one extra scroll, reserving the bottom row, exactly when the
      cursor sits on the last row or the last write scrolled. */
  function Reserve(y: int, h: int, n: nat): (r: nat)
    ensures r == n + 1 <==> y >= h - 1 || n > 0
    ensures r == n <==> !(y >= h - 1 || n > 0)
  {
    if y >= h - 1 || n > 0 then n + 1 else n
  }

  // ---------------------------------------------------------------- erasing

  /** The cell `(cx, cy)` lies inside `r`, read as half-open ranges. */
  predicate Covers(r: Rect, cx: int, cy: int) {
    r.left <= cx < r.right && r.top <= cy < r.bottom
  }

  predicate Clears(ops: seq<ConsoleOp>, cx: int, cy: int) {
    exists op :: op in ops && op.ClearArea? && Covers(op.area, cx, cy)
  }

  /** `_clear_after`: erase the rest of the cursor's row and at most the two rows
      below it that are inside the window; nothing before the cursor is touched. */
  function ClearAfter(at: Pos, size: Size): (r: seq<ConsoleOp>)
    ensures forall op :: op in r ==> op.ClearArea?
    ensures forall cx :: at.x <= cx < size.w ==> Clears(r, cx, at.y)
    ensures forall cx, cy :: 0 <= cx < size.w && at.y < cy <= at.y + 2 && cy < size.h ==> Clears(r, cx, cy)
    ensures forall cx, cy :: Clears(r, cx, cy) ==> (cy == at.y && cx >= at.x) || (at.y < cy <= at.y + 2 && cy < size.h)
  {
    var first := Rect(at.x, at.y, size.w + 1, at.y + 1);
    var rest := Rect(0, at.y + 1, size.w, Min(at.y + 3, size.h));
    var r := [ClearArea(first), ClearArea(rest)];
    assert forall cx :: at.x <= cx < size.w ==> Covers(r[0].area, cx, at.y);
    assert forall cx, cy :: 0 <= cx < size.w && at.y < cy <= at.y + 2 && cy < size.h ==> Covers(r[1].area, cx, cy);
    r
  }

  // -------------------------------------------------------------- one pass

  /** What a pass leaves behind: the new prompt positions, the painted spans, where
      the cursor was put, and every console call, in order. */
  datatype Pass = Pass(screen: Screen, spans: seq<Painted>, cursor: Pos, ops: seq<ConsoleOp>)

  function ReserveOps(size: Size): seq<ConsoleOp> {
    [ScrollWindow(-1), ScrollArea(Rect(0, 0, size.w, size.h), 0, -1)]
  }

  /** `_update_line`. Only the scroll count of the last paint write enters the
      bookkeeping: the three selection writes each overwrite it. */
  function Redraw(s: Screen, v: View, o: RedrawObs): (r: Pass)
    requires o.size.w > 0
    ensures var n := Reserve(o.afterPaint.y, o.size.h, o.paintScroll);
      && r.screen.promptBegin == Pos(o.promptAt.x, o.promptAt.y - o.promptScroll - n)
      && r.screen.promptEnd == Pos(o.promptEnd.x, o.promptEnd.y - n)
      && r.screen.size == o.size
      && r.cursor == SetCursor(r.screen.promptEnd, v.width, o.size.w)
    ensures r.spans == Paint(v) && Joined(r.spans) == v.rendered
    ensures 3 + |r.spans| <= |r.ops|
    ensures forall i :: 0 <= i < |r.spans| ==> r.ops[3 + i] == WriteScrolling(r.spans[i].text, r.spans[i].color)
    ensures ScrollWindow(-1) in r.ops <==> o.afterPaint.y >= o.size.h - 1 || o.paintScroll > 0
    ensures |r.ops| >= 5
    ensures r.ops[0] == Cursor(false, None) && r.ops[1] == MoveTo(s.promptBegin)
    ensures r.ops[2] == WriteScrolling(v.prompt, v.promptColor)
    ensures o.fastClear ==> ClearToEndOfWindow in r.ops
    ensures !o.fastClear ==> forall op :: op in ClearAfter(o.clearFrom, o.size) ==> op in r.ops
    ensures r.ops[|r.ops| - 2] == Cursor(true, Some(v.cursorSize))
    ensures r.ops[|r.ops| - 1] == MoveTo(r.cursor)
  {
    var printed := PrintPrompt(o.promptAt, o.promptScroll, o.promptEnd, o.size);
    var spans := Paint(v);
    var n := Reserve(o.afterPaint.y, o.size.h, o.paintScroll);
    var shifted := UpdatePromptPos(printed, n);
    var cursor := SetCursor(shifted.promptEnd, v.width, o.size.w);
    var ops := PassOps(s.promptBegin, v, spans, n > o.paintScroll, o, cursor);
    Pass(shifted, spans, cursor, ops)
  }

  /** The console calls of a pass, in order: hide the cursor, go to the prompt start,
      write the prompt, write the spans, reserve a row if asked, erase, show the cursor
      and place it. */
  function PassOps(begin: Pos, v: View, spans: seq<Painted>, reserve: bool, o: RedrawObs, cursor: Pos)
    : (r: seq<ConsoleOp>)
    ensures |r| >= 5
    ensures r[0] == Cursor(false, None) && r[1] == MoveTo(begin)
    ensures r[2] == WriteScrolling(v.prompt, v.promptColor)
    ensures 3 + |spans| <= |r|
    ensures forall i :: 0 <= i < |spans| ==> r[3 + i] == WriteScrolling(spans[i].text, spans[i].color)
    ensures ScrollWindow(-1) in r <==> reserve
    ensures o.fastClear ==> ClearToEndOfWindow in r
    ensures !o.fastClear ==> forall op :: op in ClearAfter(o.clearFrom, o.size) ==> op in r
    ensures r[|r| - 2] == Cursor(true, Some(v.cursorSize))
    ensures r[|r| - 1] == MoveTo(cursor)
  {
    var head := [Cursor(false, None), MoveTo(begin), WriteScrolling(v.prompt, v.promptColor)];
    var scroll := if reserve then ReserveOps(o.size) else [];
    var clear := if o.fastClear then [ClearToEndOfWindow] else ClearAfter(o.clearFrom, o.size);
    var tail := [Cursor(true, Some(v.cursorSize)), MoveTo(cursor)];
    var rest := scroll + (clear + tail);
    var writes := Writes(spans);
    assert ScrollWindow(-1) !in head + writes;
    assert ScrollWindow(-1) !in clear + tail;
    assert forall i :: 0 <= i < |spans| ==> (writes + rest)[i] == writes[i];
    head + (writes + rest)
  }

  /** What a pass writes after the prompt: the whole text in the command colour, or,
      with a selection, three writes that spell the text and of which only the middle
      one uses the selection colour. */
  lemma RedrawWritesText(s: Screen, v: View, o: RedrawObs)
    requires o.size.w > 0
    ensures var ops := Redraw(s, v, o).ops;
      if v.selection.None? then
        |ops| > 3 && ops[3] == WriteScrolling(v.rendered, v.commandColor)
      else
        && |ops| > 5
        && ops[3].WriteScrolling? && ops[4].WriteScrolling? && ops[5].WriteScrolling?
        && ops[3].color == v.commandColor && ops[4].color == v.selectionColor
        && ops[5].color == v.commandColor
        && ops[3].text + ops[4].text + ops[5].text == v.rendered
  {
    var r := Redraw(s, v, o);
    if v.selection.Some? {
      assert Joined(r.spans[2..]) == r.spans[2].text;
      assert Joined(r.spans[1..]) == r.spans[1].text + Joined(r.spans[2..]);
    }
  }

  /** No drift: when the console puts the cursor where it is sent, nothing scrolls and
      the cursor stays off the last row, a pass keeps the prompt where it was and a
      second pass repeats the first exactly. */
  lemma RedrawIsStable(s: Screen, v: View, o: RedrawObs)
    requires o.size.w > 0 && o.promptAt == s.promptBegin
    requires o.promptScroll == 0 && o.paintScroll == 0 && o.afterPaint.y < o.size.h - 1
    ensures Redraw(s, v, o).screen.promptBegin == s.promptBegin
    ensures Redraw(s, v, o).screen.promptEnd == o.promptEnd
    ensures Redraw(Redraw(s, v, o).screen, v, o) == Redraw(s, v, o)
  {
  }

  /** No drift over two passes that observe different windows: as long as each pass
      finds the cursor where it sent it and nothing scrolls, the second pass goes back
      to the same prompt start, and the prompt stays there. */
  lemma RedrawTwiceNoDrift(s: Screen, v1: View, o1: RedrawObs, v2: View, o2: RedrawObs)
    requires o1.size.w > 0 && o1.promptAt == s.promptBegin
    requires o1.promptScroll == 0 && o1.paintScroll == 0 && o1.afterPaint.y < o1.size.h - 1
    requires o2.size.w > 0 && o2.promptAt == Redraw(s, v1, o1).screen.promptBegin
    requires o2.promptScroll == 0 && o2.paintScroll == 0 && o2.afterPaint.y < o2.size.h - 1
    ensures var second := Redraw(Redraw(s, v1, o1).screen, v2, o2);
      && second.ops[1] == MoveTo(s.promptBegin)
      && second.screen.promptBegin == s.promptBegin
      && second.screen.promptEnd == o2.promptEnd
  {
  }
}

=== FILE: state.dfy ===
/** The engine's state as one immutable record: the editing modes with the active one,
    the render engine's prompt positions, the options, the interrupt-tap clock, and the
    callback slot. The editing modes' own behaviour is a parameter (`Env`). */
module EngineState {
  import opened Common
  import opened Console
  import opened Render
  import opened Interrupt

  /** The active mode's line buffer. `mark` is -1 when no mark is set. */
  datatype LineBuffer = LineBuffer(text: string, point: nat, mark: int, selectionEnabled: bool)

  /** One editing mode: its buffer, history, prompt, pending paste lines and key tables.
      `commands` are the names an attribute lookup on the mode resolves. */
  datatype Mode = Mode(
    name: string,
    buffer: LineBuffer,
    history: seq<string>,
    prompt: string,
    cursorSize: int,
    pasteQueue: seq<string>,
    keyDispatch: map<KeyPress, string>,
    exitKeys: set<KeyPress>,
    commands: set<string>)

  datatype Colors = Colors(prompt: Color, command: Color, selection: Color)

  datatype Engine = Engine(
    modes: seq<Mode>,
    active: nat,
    screen: Option<Screen>,             // the prompt positions, absent until a prompt is printed
    colors: Colors,
    allowCtrlC: bool,
    tapWindow: Interval,
    lastTap: TapTime,                   // `ctrl_c_timeout`
    bellStyle: string,
    debug: bool,
    attributes: map<string, string>,    // other attributes assigned by `set` lines
    callbackInstalled: bool,
    strayBuffer: Option<string>)        // the engine-level `l_buffer` a paste step assigns
  {
    /** The active mode is one of the modes. */
    predicate Valid() {
      active < |modes|
    }

    function Current(): Mode
      requires Valid()
    {
      modes[active]
    }
  }

  /** What the editing mode does on the engine's behalf; none of it is defined here. */
  datatype Env = Env(
    process: (Mode, KeyPress) -> (Mode, bool),  // `process_keyevent`: new state, line complete?
    quote: string -> string,                    // `quoted_text` of a text
    width: (string, nat) -> nat,                // `visible_line_width` up to a position
    setup: (Mode, string) -> Mode)              // the mode's `readline_setup(prompt)`

  /** The engine with `m` as its active mode and nothing else changed. */
  function WithCurrent(e: Engine, m: Mode): (r: Engine)
    requires e.Valid()
    ensures r.Valid() && r.Current() == m
    ensures |r.modes| == |e.modes| && r.active == e.active
    ensures forall i :: 0 <= i < |e.modes| && i != e.active ==> r.modes[i] == e.modes[i]
  {
    e.(modes := e.modes[e.active := m])
  }

  /** `BaseReadline.__init__`: the first mode is active, interrupts are not allowed, the
      tap window is 0.3 s, the bell is off, debug is off and no callback is installed.
      Neither the tap time nor the prompt positions exist yet. Colours are not
      assigned here; they read as unset. */
  function BaseInitial(modes: seq<Mode>): (r: Engine)
    requires |modes| > 0
    ensures r.Valid() && r.Current() == modes[0]
    ensures !r.allowCtrlC && r.tapWindow == DefaultInterval && r.lastTap.NotSet?
    ensures r.bellStyle == "none" && !r.debug && !r.callbackInstalled
    ensures r.screen.None? && r.strayBuffer.None? && r.attributes == map[]
  {
    Engine(modes, 0, None, Colors(Unset, Unset, Unset),
           false, DefaultInterval, NotSet, "none", false, map[], false, None)
  }

  /** `Readline.__init__`: the base state, with the selection colour taken from the
      console's saved attribute shifted into the background nibble and the command and
      prompt colours unset. */
  function Initial(modes: seq<Mode>, saveattr: int): (r: Engine)
    requires |modes| > 0
    ensures r == BaseInitial(modes).(colors := r.colors)
    ensures r.colors == Colors(Unset, Unset, Attr(saveattr * 16))
  {
    BaseInitial(modes).(colors := Colors(Unset, Unset, Attr(saveattr * 16)))
  }
}

=== FILE: statements.dfy ===
/** Classification of one line of a readline init file, as `parse_and_bind` reads it.

    Two regular expressions decide the shape of a line:
      set line     `set\s+([-a-zA-Z0-9]+)\s+(.+)\s*$`
      binding line `\s*(.+)\s*:\s*([-a-zA-Z]+)\s*$`
    Both are applied with `re.match`, so they are anchored at the start. The parsers
    below compute, without backtracking, the groups Python's leftmost-greedy matcher
    reports; `SetSplit` and `BindingSplit` state the shapes declaratively, and the
    lemmas show that a parser succeeds exactly when its line has that shape. */
module Statements {
  import opened Common
  import opened PyText

  datatype Statement =
    | Comment                                   // starts with '#'
    | SetOption(name: string, value: string)    // a `set` line the pattern matches
    | BadSet                                    // starts with "set" but the pattern fails
    | Binding(key: string, command: string)     // a `chord : command` line
    | Ignored                                   // neither pattern matches

  /** The branch `parse_and_bind` takes for a line. */
  function Classify(s: string): (r: Statement)
    ensures r.Comment? <==> StartsWith(s, "#")
    ensures (r.SetOption? || r.BadSet?) <==> !StartsWith(s, "#") && StartsWith(s, "set")
    ensures (r.Binding? || r.Ignored?) <==> !StartsWith(s, "#") && !StartsWith(s, "set")
    ensures r.SetOption? ==> |r.name| > 0 && |r.value| > 0
  {
    if StartsWith(s, "#") then Comment
    else if StartsWith(s, "set") then ParseSet(s)
    else ParseBinding(s)
  }

  // ---------------------------------------------------------------- set lines

  /** `s` decomposes as "set", blanks `s[3..i]`, a name `s[i..j]`, blanks `s[j..k]`,
      a value `s[k..l]` without a line feed, and blanks `s[l..]` to the end. */
  predicate SetSplit(s: string, i: int, j: int, k: int, l: int) {
    && StartsWith(s, "set")
    && 3 < i < j < k < l <= |s|
    && All(s, 3, i, IsSpace)
    && All(s, i, j, IsNameChar)
    && All(s, j, k, IsSpace)
    && All(s, k, l, IsNotNewline)
    && All(s, l, |s|, IsSpace)
  }

  /** The groups of the set pattern. The blanks before the name and the name are
      maximal runs; the second `\s+` is greedy, so the value starts at the first
      non-blank after the name and runs to the first line feed, which only blanks may
      follow. When nothing but blanks follows the name, `\s+` gives back characters
      until `.+` can take one: the value is the last blank that is not a line feed. */
  function ParseSet(s: string): (r: Statement)
    requires StartsWith(s, "set")
    ensures r.SetOption? || r.BadSet?
    ensures r.SetOption? ==> |r.name| > 0 && |r.value| > 0
  {
    var a := Span(s, 3, IsSpace);
    var b := Span(s, a, IsNameChar);
    var c := Span(s, b, IsSpace);
    if a == 3 || b == a || c == b then BadSet
    else if c < |s| then
      var e := IndexFrom(s, c, '\n');
      if All(s, e, |s|, IsSpace) then SetOption(s[a..b], s[c..e]) else BadSet
    else
      var k := LastBelow(s, |s|, IsNotNewline);
      if k <= b then BadSet else SetOption(s[a..b], s[k..k + 1])
  }

  /** Whatever `ParseSet` accepts has the shape of a set line, and its name and
      value are groups of such a decomposition. */
  lemma {:induction false} ParseSetSound(s: string)
    requires StartsWith(s, "set")
    ensures ParseSet(s).SetOption? ==>
      exists i, j, k, l :: SetSplit(s, i, j, k, l)
        && ParseSet(s).name == s[i..j] && ParseSet(s).value == s[k..l]
  {
    var a := Span(s, 3, IsSpace);
    var b := Span(s, a, IsNameChar);
    var c := Span(s, b, IsSpace);
    if a == 3 || b == a || c == b {
    } else if c < |s| {
      var e := IndexFrom(s, c, '\n');
      if All(s, e, |s|, IsSpace) {
        assert IsNotNewline(s[c]) by { assert !IsSpace(s[c]); }
        assert e > c;
        assert SetSplit(s, a, b, c, e);
      }
    } else {
      var k := LastBelow(s, |s|, IsNotNewline);
      if k > b {
        assert All(s, b, k, IsSpace);
        assert All(s, k + 1, |s|, IsSpace) by {
          forall m | k + 1 <= m < |s| ensures IsSpace(s[m]) {
            assert !IsNotNewline(s[m]);
          }
        }
        assert SetSplit(s, a, b, k, k + 1);
      }
    }
  }

  /** Every line of the shape of a set line is accepted, and the name reported is the
      name of that decomposition: the name of a set line is unambiguous. */
  lemma {:induction false} ParseSetComplete(s: string, i: int, j: int, k: int, l: int)
    requires SetSplit(s, i, j, k, l)
    ensures ParseSet(s).SetOption?
    ensures ParseSet(s).name == s[i..j]
  {
    assert !IsSpace(s[i]) by { assert IsNameChar(s[i]); }
    SpanStops(s, 3, IsSpace, i);
    var a := Span(s, 3, IsSpace);
    assert !IsNameChar(s[j]) by { assert IsSpace(s[j]); }
    SpanStops(s, a, IsNameChar, j);
    var b := Span(s, a, IsNameChar);
    SpanCovers(s, b, IsSpace, k);
    var c := Span(s, b, IsSpace);
    if c < |s| {
      assert c < l;
      IndexFromCovers(s, c, '\n', l);
      var e := IndexFrom(s, c, '\n');
      assert All(s, e, |s|, IsSpace);
    } else {
      LastBelowReaches(s, |s|, IsNotNewline, k);
    }
  }

  // ------------------------------------------------------------ binding lines

  /** `s` decomposes as blanks `s[..j]`, a key `s[j..m]` without a line feed, blanks
      `s[m..p]`, a colon at `p`, blanks `s[p+1..q]`, a command `s[q..r]`, and blanks
      `s[r..]` to the end. */
  predicate BindingSplit(s: string, j: int, m: int, p: int, q: int, r: int) {
    && 0 <= j < m <= p < q < r <= |s|
    && All(s, 0, j, IsSpace)
    && All(s, j, m, IsNotNewline)
    && All(s, m, p, IsSpace)
    && s[p] == ':'
    && All(s, p + 1, q, IsSpace)
    && All(s, q, r, IsCommandChar)
    && All(s, r, |s|, IsSpace)
  }

  /** The groups of the binding pattern. Only the last colon can be followed by blanks
      and a command alone, so it is the separator; the key is found by `KeyBefore`. */
  function ParseBinding(s: string): (r: Statement)
    ensures r.Binding? || r.Ignored?
    ensures r.Binding? ==> 0 < |r.key| && '\n' !in r.key && 0 < |r.command| && ':' !in r.command
  {
    var p := LastBelow(s, |s|, IsColon);
    if p < 0 then Ignored
    else
      var q := Span(s, p + 1, IsSpace);
      var r := Span(s, q, IsCommandChar);
      if r == q || !All(s, r, |s|, IsSpace) then Ignored
      else
        match KeyBefore(s, p)
        case None => Ignored
        case Some(key) => Binding(key, s[q..r])
  }

  /** The key group `\s*(.+)\s*` in front of the separator at `p`. The key starts after
      the leading blanks and runs, greedily, to the separator, or to the first line feed
      when only blanks lie between that line feed and the separator. When only blanks
      precede the separator, the leading `\s*` gives back characters until `.+` can take
      one: the key is the last of those blanks that is not a line feed. */
  function KeyBefore(s: string, p: nat): (r: Option<string>)
    requires p <= |s|
    ensures r.Some? ==> 0 < |r.value| <= p && '\n' !in r.value
  {
    var l := Span(s, 0, IsSpace);
    if l < p then
      var nl := IndexFrom(s, l, '\n');
      if nl >= p then Some(s[l..p])
      else if All(s, nl, p, IsSpace) then Some(s[l..nl])
      else None
    else
      var j := LastBelow(s, p, IsNotNewline);
      if j < 0 then None else Some(s[j..j + 1])
  }

  /** A key found in front of `p` is a group of a decomposition `blanks key blanks`. */
  lemma {:induction false} KeyBeforeSound(s: string, p: nat)
    requires p <= |s|
    requires KeyBefore(s, p).Some?
    ensures exists j, m ::
              && 0 <= j < m <= p
              && All(s, 0, j, IsSpace) && All(s, j, m, IsNotNewline) && All(s, m, p, IsSpace)
              && KeyBefore(s, p).value == s[j..m]
  {
    var l := Span(s, 0, IsSpace);
    if l < p {
      var nl := IndexFrom(s, l, '\n');
      assert s[l] != '\n' by { assert !IsSpace(s[l]); }
      if nl >= p {
        assert All(s, l, p, IsNotNewline);
      } else {
        assert All(s, l, nl, IsNotNewline);
      }
    } else {
      var j := LastBelow(s, p, IsNotNewline);
      assert All(s, j + 1, p, IsSpace) by {
        forall t | j + 1 <= t < p ensures IsSpace(s[t]) {
          assert !IsNotNewline(s[t]);
        }
      }
      assert All(s, j, j + 1, IsNotNewline);
    }
  }

  /** A decomposition `blanks key blanks` in front of `p` guarantees a key. */
  lemma {:induction false} KeyBeforeComplete(s: string, j: int, m: int, p: nat)
    requires 0 <= j < m <= p <= |s|
    requires All(s, 0, j, IsSpace) && All(s, j, m, IsNotNewline) && All(s, m, p, IsSpace)
    ensures KeyBefore(s, p).Some?
  {
    SpanCovers(s, 0, IsSpace, j);
    var l := Span(s, 0, IsSpace);
    if l < p {
      assert l < m;
      IndexFromCovers(s, l, '\n', m);
      var nl := IndexFrom(s, l, '\n');
      if nl < p {
        assert All(s, nl, p, IsSpace);
      }
    } else {
      LastBelowReaches(s, p, IsNotNewline, j);
    }
  }

  /** Whatever `ParseBinding` accepts has the shape of a binding line, and its key and
      command are groups of such a decomposition. */
  lemma {:induction false} ParseBindingSound(s: string)
    ensures ParseBinding(s).Binding? ==>
      exists j, m, p, q, r :: BindingSplit(s, j, m, p, q, r)
        && ParseBinding(s).key == s[j..m] && ParseBinding(s).command == s[q..r]
  {
    var p := LastBelow(s, |s|, IsColon);
    if p >= 0 {
      var q := Span(s, p + 1, IsSpace);
      var r := Span(s, q, IsCommandChar);
      if r != q && All(s, r, |s|, IsSpace) && KeyBefore(s, p).Some? {
        KeyBeforeSound(s, p);
        var j, m :| 0 <= j < m <= p && All(s, 0, j, IsSpace) && All(s, j, m, IsNotNewline)
          && All(s, m, p, IsSpace) && KeyBefore(s, p).value == s[j..m];
        assert BindingSplit(s, j, m, p, q, r);
      }
    }
  }

  /** Every line of the shape of a binding line is accepted, and the command reported
      is the command of that decomposition: the command of a binding line is
      unambiguous. */
  lemma {:induction false} ParseBindingComplete(s: string, j: int, m: int, p: int, q: int, r: int)
    requires BindingSplit(s, j, m, p, q, r)
    ensures ParseBinding(s).Binding?
    ensures ParseBinding(s).command == s[q..r]
  {
    assert IsColon(s[p]);
    LastBelowReaches(s, |s|, IsColon, p);
    assert LastBelow(s, |s|, IsColon) == p by {
      assert forall t :: p < t < |s| ==> !IsColon(s[t]);
    }
    assert !IsSpace(s[q]) by { assert IsCommandChar(s[q]); }
    SpanStops(s, p + 1, IsSpace, q);
    assert r == |s| || !IsCommandChar(s[r]) by {
      if r < |s| { assert IsSpace(s[r]); }
    }
    SpanStops(s, q, IsCommandChar, r);
    KeyBeforeComplete(s, j, m, p);
  }
}
